=== FILE: README.md ===
# grail-seeker-web core logic in Dafny

grail-seeker-web is the Next.js front end of a comic-book "grail" tracker.
Collectors save searches for a series, an issue number, a grade range and
some marketplaces, and they get alerts when matching listings appear. The
front end is mostly glue, but a dozen small pieces of it decide things on
their own. This project models those pieces as pure Dafny functions over
immutable data and proves what they promise:

- the grade-range auto-correction and the grade scale;
- splitting and joining E.164 phone numbers against the dial-code table;
- the search-form rules;
- the alerts query string and the eBay affiliate URLs;
- the redirect decisions of the auth middleware and the OAuth callback;
- the optimistic delete on the searches cache;
- the toast list;
- the series-autocomplete state machine;
- the header's avatar initials;
- the REST client's base URL, header merge, response mapping and request bodies;
- the error reporter's `beforeSend` sanitiser.

One module per source file; `Wrappers` (an `Option` type) and `Text`
(digits, ASCII upper-casing, `split`/`join`, integer formatting) are shared.
Where the program calls into code outside this model, the model takes the
outcome as an input or the function as a parameter:

- the network, Supabase auth, the session token and the user lookup;
- `JSON.parse` (the body arrives parsed, or as a parse failure) and `JSON.stringify`;
- `encodeURIComponent` and form-urlencoded escaping;
- URL parsing and serialisation (the request URL arrives split into its query pairs).

Grades and prices are Dafny `real`s and integer widths do not matter anywhere in the core.

A few facts about the code that a reader might not expect:

- the realtime hooks only invalidate the cache; they do no coalescing or deduplication;
- the affiliate item link is the direct item URL plus tracking parameters, although the doc comment of `buildEbayCampaignUrl` (lib/ebay/campaign-url.ts) shows a rover link;
- an empty `next` on the OAuth callback is kept rather than defaulted, and resolves to the callback URL itself; a `next` that does not parse as a URL, such as `//`, makes the callback throw after a successful exchange;
- an `APIError` message is the string form of what the server sent, so a message sent as an empty array gives an empty message, and a message object with its own "toString" key makes building the error throw a TypeError.

## Model

| member | source | states |
|---|---|---|
| GradeRange.SetMin | components/search/GradeRangeSelector.tsx:44-56 | the new minimum is always the result's minimum; the maximum is raised to it exactly when both are concrete and the new minimum is above it, and is otherwise untouched; the result is ordered whatever the prior range |
| GradeRange.SetMax | components/search/GradeRangeSelector.tsx:58-70 | the mirror of SetMin: the maximum is always set; the minimum is lowered to it only when both are concrete and the new maximum is below it; the result is ordered |
| GradeRange.SetMinIdempotent | components/search/GradeRangeSelector.tsx:44-56 | repeating a minimum edit gives the same range as doing it once |
| GradeRange.SetMaxIdempotent | components/search/GradeRangeSelector.tsx:58-70 | repeating a maximum edit gives the same range as doing it once |
| GradeRange.SetMinMinimalChange | components/search/GradeRangeSelector.tsx:44-56 | the edit changes only the minimum exactly when that alone keeps the range ordered |
| GradeRange.SetMaxMinimalChange | components/search/GradeRangeSelector.tsx:58-70 | the edit changes only the maximum exactly when that alone keeps the range ordered |
| GradeRange.SetMaxIsMirroredSetMin | components/search/GradeRangeSelector.tsx:44-70 | the maximum edit is the minimum edit seen in the mirror, so the two handlers are exact mirror images |
| GradeRange.GradeScaleShape | components/search/GradeRangeSelector.tsx:10-35 | the scale has 24 entries: "Any" (no grade) first, then concrete grades strictly ascending from 0.5 to 10.0 |
| GradeRange.StepsUpAscending | components/search/GradeRangeSelector.tsx:10-35 | neighbour-by-neighbour ascent of the scale gives ascent and bounds between any two entries |
| GradeRange.EditsStayOnScale | components/search/GradeRangeSelector.tsx:44-70 | editing with a grade from a set, starting from bounds in that set, leaves both bounds in the set |
| GradeRange.ExampleMinRaisesMax | components/search/GradeRangeSelector.tsx:48-52 | setting the minimum to 9.8 on the range 9.0–9.4 raises the maximum to 9.8 |
| GradeRange.ExampleAnyMaxUntouched | components/search/GradeRangeSelector.tsx:45-53 | an "Any" maximum is never corrected; a concrete one below the new minimum is |
| PhoneInput.LongestMatch | components/ui/PhoneInput.tsx:56-64 | sorting by length and taking the first prefix finds no code exactly when none prefixes the input; otherwise the code found is listed, prefixes the input and is the longest such |
| PhoneInput.UpToLineTerminator | components/ui/PhoneInput.tsx:67-70 | the regular expression's `(.*)` captures the input up to, not including, its first line terminator |
| PhoneInput.LeadingDigits | components/ui/PhoneInput.tsx:67-70 | `\d{1,3}` takes the leading ASCII digits greedily, at most three |
| PhoneInput.SplitNumber | components/ui/PhoneInput.tsx:51-73 | no leading '+' gives ('+1', ''); a table match gives the longest code and code followed by national part is the input; otherwise a '+' and digits gives '+' plus one to three digits and the rest up to a line terminator; a '+' and a non-digit gives '+1' and the input after the '+' |
| PhoneInput.Fallback | components/ui/PhoneInput.tsx:66-72 | without a table match, a '+' followed by a digit gives a code of '+' and its greedy one to three digits and the rest of the line as the national number; otherwise the default "+1" and everything after the '+' |
| PhoneInput.ParseE164 | components/ui/PhoneInput.tsx:51-73 | over the component's table the country code always starts with '+', and unless it is the default "+1" it is a prefix of the input |
| PhoneInput.ToE164 | components/ui/PhoneInput.tsx:78-87 | empty when the national number has no digit, otherwise the code followed by the national number's digits in order |
| PhoneInput.SplitOfDigitsIsSuffix | components/ui/PhoneInput.tsx:51-73 | for '+' and digits the national part is a suffix of the input, so digits only |
| PhoneInput.SplitThenJoin | components/ui/PhoneInput.tsx:51-87 | for '+' followed by digits with a non-empty national part, joining the split gives the input back |
| PhoneInput.JoinThenSplit | components/ui/PhoneInput.tsx:51-87 | for a prefix-free table, joining a listed code and a number with a digit and splitting again gives the code and the digits back |
| PhoneInput.ShapedCodesPrefixFree | components/ui/PhoneInput.tsx:13-39 | codes of the table's shapes never extend one another |
| PhoneInput.CountryCodeShapes | components/ui/PhoneInput.tsx:13-39 | every dial code of the table is '+1', a three-character '+' code other than '+1x' and '+35', or a four-character '+35x' code |
| PhoneInput.CountryCodesPrefixFree | components/ui/PhoneInput.tsx:13-39 | the table's dial codes are '+' codes none of which prefixes another |
| PhoneInput.ParseThenJoin | components/ui/PhoneInput.tsx:51-87 | the split-then-join round trip over the component's own table |
| PhoneInput.JoinThenParse | components/ui/PhoneInput.tsx:51-87 | choosing a country of the table and typing a number with a digit parses back to that country's code and the digits |
| SearchValidation.Validate | lib/validations/search.ts:3-17 | a problem is reported exactly when its rule fails: series absent, series null, issue number empty, issue number not digits or "nn", a present grade outside [0.5, 10], no platform |
| SearchValidation.IsValidFieldByField | lib/validations/search.ts:3-17 | a form is valid exactly when each field rule holds on its own |
| SearchValidation.EmptyIssueNumberTwoProblems | lib/validations/search.ts:7-10 | an empty issue number breaks both the length rule and the pattern rule |
| SearchValidation.NoCrossFieldCheck | lib/validations/search.ts:11-13 | a minimum grade above the maximum grade and a negative price are accepted |
| SearchValidation.ScaleGradesPass | lib/validations/search.ts:12-13 | every grade the selector offers satisfies the grade rule |
| AlertsQuery.EmittedByRank | lib/api/alerts.ts:15-30 | the value each parameter would be sent with, indexed by its position in the fixed order |
| AlertsQuery.Emitted | lib/api/alerts.ts:16-30 | a parameter is sent only when the caller gave it, and never with an empty value |
| AlertsQuery.AppendFromSound | lib/api/alerts.ts:15-30 | the appended pairs follow the fixed order, at most one per parameter, each with its value |
| AlertsQuery.AppendFromHas | lib/api/alerts.ts:15-30 | a parameter with a value at or after the starting position is appended with that value |
| AlertsQuery.AppendFromComplete | lib/api/alerts.ts:15-30 | every parameter that has a value is appended |
| AlertsQuery.QueryParams | lib/api/alerts.ts:15-30 | at most five pairs, in the order limit, offset, platform, matchType, searchId, each sent exactly when the per-parameter rule gives it a value |
| AlertsQuery.Serialize | lib/api/alerts.ts:31 | the query string is empty exactly when there are no pairs |
| AlertsQuery.ListUrl | lib/api/alerts.ts:31-32 | '/api/alerts' with no '?' when nothing is sent, otherwise '/api/alerts?' followed by the query |
| AlertsQuery.SentIffEmitted | lib/api/alerts.ts:16-30 | a parameter is sent with a value exactly when the rule gives it that value: limit and offset whenever defined (0 included), platform and matchType unless absent or 'all', searchId unless absent or empty |
| AlertsQuery.NoFiltersNoQuery | lib/api/alerts.ts:15-32 | with no params, or only defaults, the URL is exactly '/api/alerts' |
| AlertsQuery.ExampleFirstPage | lib/api/alerts.ts:16-30 | limit 20, offset 0, platform 'all' and an empty searchId send limit and offset only |
| EbayCampaign.Campaign | lib/ebay/campaign-url.ts:24 | a non-empty explicit campaign wins, else the configured one; the campaign used is never empty |
| EbayCampaign.CampaignItemUrl | lib/ebay/campaign-url.ts:20-42 | without a campaign, the direct item URL; with one, the direct item URL, '?', and the mkcid/mkrid/siteid/campid/customid/toolid/mkevt parameters joined by '&', whose campid reads back as the campaign and which split back apart when the campaign holds no '&' |
| EbayCampaign.CampaignSearchUrl | lib/ebay/campaign-url.ts:54-79 | without a campaign, the direct search URL of the encoded query; with one, the rover URL, '?', and six parameters joined by '&' in which pub and campid read back as the campaign and mpre as the direct search URL, not encoded again; they split back apart when the campaign and the encoded query hold no '&' |
| EbayCampaign.ItemTrackingCampaign | lib/ebay/campaign-url.ts:41 | the item tracking parameters carry the campaign as campid |
| EbayCampaign.SearchTrackingValues | lib/ebay/campaign-url.ts:69-76 | pub and campid are the campaign and mpre is the search URL, not re-encoded |
| EbayCampaign.SearchTrackingSplits | lib/ebay/campaign-url.ts:69-76 | the six rover parameters split back apart when the values hold no '&' |
| AuthMiddleware.Route | middleware.ts:31-63 | an anonymous request under /dashboard, /searches, /alerts or /settings goes to /login; a signed-in request under /login or /register goes to /dashboard; everything else passes |
| AuthMiddleware.FailureIsAnonymous | middleware.ts:31-39 | a failed user lookup is treated as no user |
| AuthMiddleware.OnlyTwoTargets | middleware.ts:42-61 | the only redirect targets are /login and /dashboard |
| AuthMiddleware.NoWrongWayRedirect | middleware.ts:42-61 | a signed-in user is never sent to /login, an anonymous one never to /dashboard |
| AuthMiddleware.RedirectTargetPasses | middleware.ts:42-63 | a redirect's target passes for the same user, so redirects never chain |
| AuthMiddleware.SectionsAreSegments | middleware.ts:42-75 | on the paths the matcher lets through, the body's prefix tests agree with whole-segment tests |
| AuthMiddleware.Serve | middleware.ts:42-75 | a path outside the matcher is never redirected; a request is sent to the login page exactly when an anonymous visitor asks for a protected section, and to the dashboard exactly when a signed-in visitor asks for an auth page |
| AuthMiddleware.PrefixNotSegment | middleware.ts:42-75 | the body alone matches on string prefixes and treats '/dashboardx' as protected, but the matcher never sends that path to the middleware, so it is served as is |
| AuthCallback.NextTarget | app/auth/callback/route.ts:7 | 'next' defaults to '/dashboard' only when absent |
| AuthCallback.Callback | app/auth/callback/route.ts:9-22 | a missing or empty code, or a failed exchange, redirects to '/login?error=verification_failed'; a successful exchange redirects to next when next parses as a URL against the request, and otherwise the handler throws with no redirect |
| AuthCallback.SuccessIff | app/auth/callback/route.ts:9-22 | the user is not sent to the failure page exactly when a non-empty code is exchanged successfully, and the handler throws exactly when, in addition, next does not parse |
| AuthCallback.EmptyNextKept | app/auth/callback/route.ts:7 | an empty next is used as is, not replaced by '/dashboard' |
| AuthCallback.UnparsableNextRejects | app/auth/callback/route.ts:13-16 | a next of '//' that does not parse makes the handler throw after a successful exchange |
| SearchesCache.RemoveById | hooks/useSearches.ts:94-97 | no kept search has the id, every kept search was there, every search with another id is kept |
| SearchesCache.RemoveByIdAppend | hooks/useSearches.ts:94-97 | removal distributes over concatenation, so the original order is kept |
| SearchesCache.RemoveByIdAbsent | hooks/useSearches.ts:94-97 | a list without the id is unchanged |
| SearchesCache.RemoveByIdIdempotent | hooks/useSearches.ts:94-97 | removing twice is removing once |
| SearchesCache.OnMutate | hooks/useSearches.ts:84-101 | the snapshot taken is the cache before removal; no data becomes an empty list; otherwise the search is removed and the response's other fields are kept |
| SearchesCache.OnError | hooks/useSearches.ts:102-107 | with a snapshot the cache is restored to it verbatim; without one it is left as is |
| SearchesCache.DeleteSearch | hooks/useSearches.ts:82-111 | a delete marks 'searches' stale once it settles, on success and on failure |
| SearchesCache.FailedDeleteRollsBack | hooks/useSearches.ts:84-107 | a failed delete leaves the cached list exactly as it was |
| SearchesCache.FailedDeleteWithoutData | hooks/useSearches.ts:93-107 | a failed delete with nothing cached leaves the empty placeholder list |
| SearchesCache.SucceededDeleteRemoves | hooks/useSearches.ts:84-101 | a successful delete removes exactly that search, keeps the others in order and keeps the other fields |
| SearchesCache.Invalidates | hooks/useSearches.ts:65-120 | a successful create, update, delete or status change marks 'searches' stale, and a delete does so even when it fails |
| SearchesCache.Exposed | hooks/useSearches.ts:123 | the exposed list is empty without data, else the cached searches |
| SearchesCache.InFlightHidesDeleted | hooks/useSearches.ts:84-123 | right after `onMutate` the deleted search is not in the exposed list |
| Toasts.ShowToast | contexts/ToastContext.tsx:20-39 | exactly one toast is appended at the end with the given title and message, type defaulting to info and duration to 5000; earlier toasts are unchanged |
| Toasts.CloseToast | contexts/ToastContext.tsx:41-43 | no kept toast has the id, every kept toast was there, every toast with another id is kept |
| Toasts.CloseAbsent | contexts/ToastContext.tsx:41-43 | closing an id no toast carries leaves the list unchanged |
| Toasts.CloseAppend | contexts/ToastContext.tsx:41-43 | closing distributes over concatenation, so the kept toasts stay in order |
| Toasts.ShowThenClose | contexts/ToastContext.tsx:27-43 | showing a toast with a fresh id and closing that id restores the list |
| Toasts.CloseIdempotent | contexts/ToastContext.tsx:41-43 | closing an id twice is closing it once |
| Toasts.UseToast | contexts/ToastContext.tsx:53-58 | the hook fails, with its message, exactly when there is no provider |
| SeriesAutocomplete.Initial | components/search/SeriesAutocomplete.tsx:20-25 | the picker starts closed with no results, showing the chosen series' title or nothing |
| SeriesAutocomplete.SelectedLabel | components/search/SeriesAutocomplete.tsx:83-85 | the text put in the input starts with the title and ends with the type, when there is one |
| SeriesAutocomplete.DisplayName | components/search/SeriesAutocomplete.tsx:114-116 | a dropdown row starts with the title and ends with ' - ' and the publisher |
| SeriesAutocomplete.DisplayNameUntyped | components/search/SeriesAutocomplete.tsx:81-116 | for a series without a type the dropdown row is the chosen-series text followed by ' - ' and the publisher |
| SeriesAutocomplete.Select | components/search/SeriesAutocomplete.tsx:81-87 | choosing a series records it, shows its text and closes the dropdown, leaving results and index alone |
| SeriesAutocomplete.KeyDown | components/search/SeriesAutocomplete.tsx:89-112 | keys are ignored while closed or empty; ArrowDown and ArrowUp move the index by one without leaving the results; Enter chooses the highlighted series if there is one; Escape only closes |
| SeriesAutocomplete.ArrowsStayInRange | components/search/SeriesAutocomplete.tsx:93-100 | an index within the results stays within them under every key |
| SeriesAutocomplete.SearchGate | components/search/SeriesAutocomplete.tsx:39-66 | no search while a series is chosen; a query shorter than two clears the results and closes; otherwise a search for the query is scheduled |
| SeriesAutocomplete.SearchDone | components/search/SeriesAutocomplete.tsx:52-63 | fresh results open the dropdown with the index at 0; a failure empties the results |
| SeriesAutocomplete.Step | components/search/SeriesAutocomplete.tsx:20-164 | only a cleared input, a new value from the parent or a choice from the dropdown changes the chosen series; only the gate and a finished search change the results; clicking a shown row chooses it and closes the dropdown |
| SeriesAutocomplete.Run | components/search/SeriesAutocomplete.tsx:20-164 | a run of events with neither the gate nor a finished search leaves the results as they were |
| SeriesAutocomplete.StepKeepsIndexInRange | components/search/SeriesAutocomplete.tsx:20-164 | every event keeps the highlighted index within the results |
| SeriesAutocomplete.RunKeepsIndexInRange | components/search/SeriesAutocomplete.tsx:20-164 | from any state with the index in range, any sequence of events keeps it in range |
| SeriesAutocomplete.NoSearchWhileChosen | components/search/SeriesAutocomplete.tsx:41-132 | once a series is chosen, no search is scheduled until the input is emptied or the value replaced |
| SeriesAutocomplete.ClearingDeselects | components/search/SeriesAutocomplete.tsx:45-132 | emptying the input drops the chosen series and the dropdown then closes with no results |
| Initials.LocalPart | components/layout/Header.tsx:30 | the name is the part of the email before the first '@' |
| Initials.InitialsAsWritten | components/layout/Header.tsx:29-36 | the helper as written throws exactly when the first two of several segments are both empty |
| Initials.Initials | components/layout/Header.tsx:29-36 | the corrected initials are at most two characters with no lower-case ASCII letter |
| Initials.UserInitials | components/layout/Header.tsx:38 | the header calls the helper as written: a user without an email gets no initials; it throws exactly when the email's first two of several segments are both empty; where neither is empty it shows at most two characters |
| Initials.UserInitialsCorrected | components/layout/Header.tsx:38 | the header with the corrected helper shows at most two characters, none without an email, and shows what the header shows wherever the header does not misbehave |
| Initials.EmptyEmail | components/layout/Header.tsx:35-38 | an empty email gives no initials |
| Initials.OnlyLocalPart | components/layout/Header.tsx:30 | only the text before the first '@' matters |
| Initials.TwoNames | components/layout/Header.tsx:31-34 | a name of two non-empty parts joined by '.', '_' or '-' gives the upper-cased first letters of both |
| Initials.OneName | components/layout/Header.tsx:35 | a name without separators gives its first two characters upper-cased, or fewer if shorter |
| Initials.CorrectionAgrees | components/layout/Header.tsx:29-36 | wherever the first two segments are non-empty the corrected helper gives what the code gives |
| Initials.TrailingSeparatorShowsUndefined | components/layout/Header.tsx:33 | a name ending in a separator gives the first letter followed by the word "undefined", all upper-cased, ten characters; the corrected helper gives the upper-cased letter alone |
| Initials.SeparatorsOnlyThrows | components/layout/Header.tsx:33 | a name of two separators makes the code throw; the corrected helper gives no initials |
| ApiClient.BaseUrl | lib/api/client.ts:5-21 | on the server the configured URL or 'http://localhost:3000'; in a browser 'http://localhost:3000' for localhost and 127.0.0.1, else an http URL of the page's host |
| ApiClient.BrowserSameHost | lib/api/client.ts:12-20 | in a browser the API is on port 3000 of the page's own host, with 127.0.0.1 mapped to localhost |
| ApiClient.RequestUrl | lib/api/client.ts:37-38 | the request URL is the base followed by the endpoint |
| ApiClient.MergeHeaders | lib/api/client.ts:46-52 | the caller's headers win; Content-Type defaults to JSON; Authorization is 'Bearer ' and the token exactly when the session has a non-empty token, unless the caller sets it; nothing else is added |
| ApiClient.AuthorizationIffToken | lib/api/client.ts:48-52 | without caller headers, Authorization is present exactly when there is a token |
| ApiClient.HandleResponse | lib/api/client.ts:55-80 | a non-2xx response without a JSON body gives UNKNOWN_ERROR with 'HTTP status: text'; one with a JSON body takes code and details from its error object and the message as the string form of its error message, defaulting to API_ERROR and 'An error occurred'; a JSON null body, or a message whose string conversion throws, gives a TypeError instead; 204 gives an empty object; other 2xx responses give the body or fail to parse |
| ApiClient.ResolvesIff | lib/api/client.ts:55-80 | a request resolves exactly when the status is 2xx and it is 204 or the body is JSON |
| ApiClient.JsString | lib/api/client.ts:23-33 | the Error constructor's string conversion of the message throws exactly when the value is or holds an object with its own 'toString' key; otherwise a string is itself, an object without that key is '[object Object]', an empty array is empty |
| ApiClient.ErrorsAlwaysExplained | lib/api/client.ts:60-72 | every APIError has a truthy code; its message is empty only when the server sent an array as the message |
| ApiClient.ErrorBodyMessage | lib/api/client.ts:67-72 | a truthy message in an error body without a code gives an APIError with the default code and the converted message exactly when the conversion does not throw, and a TypeError otherwise |
| ApiClient.ArrayMessagesBlank | lib/api/client.ts:67-72 | the message arrays [], [''] and [null] give an APIError with an empty message, and an empty object message gives '[object Object]' |
| ApiClient.SingleItemArray | lib/api/client.ts:30 | a one-item array message converts as its item does, with null written as nothing |
| ApiClient.ToStringKeyThrows | lib/api/client.ts:67-72 | a message object with its own 'toString' key, alone or inside an array, makes the request reject with a TypeError rather than an APIError |
| ApiClient.BareErrorBodyDefaults | lib/api/client.ts:67-72 | an error body with no error object gives both defaults and no details |
| ApiClient.Field | lib/api/client.ts:69-71 | an optional field access finds something only in an object that has the field |
| ApiClient.Or | lib/api/client.ts:69-70 | `a or b` is a when a is truthy, else b |
| ApiClient.WithMethod | lib/api/client.ts:84-102 | get and delete set the method and keep the caller's body and headers |
| ApiClient.WithPayload | lib/api/client.ts:87-99 | post and patch send a body exactly when the data is truthy, and it is the serialised data |
| ApiClient.FalsyPayloadsDropped | lib/api/client.ts:91-98 | 0, '', false and null are sent with no body; an empty object is sent |
| SentrySanitiser.RedactHeaders | sentry.server.config.ts:23-30 | the header names are unchanged; a listed header with a non-empty value becomes "[FILTERED]"; any other header, or a listed one that is empty, keeps its value |
| SentrySanitiser.SetParam | sentry.server.config.ts:38 | after `set` the parameter has the single value given and every other parameter keeps its values |
| SentrySanitiser.RemoveAll | sentry.server.config.ts:38 | the duplicates `set` removes are gone and the other parameters keep their values |
| SentrySanitiser.RedactParams | sentry.server.config.ts:35-40 | each listed parameter that was present has the single value "[FILTERED]", an absent one stays absent, and every other parameter keeps its values |
| SentrySanitiser.RedactParamsKeepsOthers | sentry.server.config.ts:35-40 | the pairs with other names stay in place and in order |
| SentrySanitiser.RedactRequest | sentry.server.config.ts:23-42 | headers and URL are redacted only when present; the rest of the request is unchanged |
| SentrySanitiser.BeforeSend | sentry.server.config.ts:21-45 | the event is always returned; one without a request is unchanged; nothing but the request changes |
| SentrySanitiser.HeadersRedacted | sentry.server.config.ts:23-30 | each header ends up "[FILTERED]" if listed and non-empty, else unchanged |
| SentrySanitiser.ParamsRedacted | sentry.server.config.ts:33-42 | each listed parameter that was present ends with the single value "[FILTERED]"; the rest of the query is untouched |
| SentrySanitiser.BeforeSendIdempotent | sentry.server.config.ts:21-45 | sanitising a sanitised event changes nothing |
| Text.KeepDigits | components/ui/PhoneInput.tsx:82 | `replace(/\D/g, '')` keeps exactly the ASCII digits, leaves a digit string unchanged and is empty exactly when there is no digit |
| Text.Split | components/layout/Header.tsx:30-31 | `split` gives at least one piece, no piece holds a separator, and a single piece exactly when there is no separator |
| Text.SplitJoin | lib/ebay/campaign-url.ts:69-76 | joining separator-free pieces and splitting again gives the pieces back |
| Text.JoinEnds | lib/ebay/campaign-url.ts:69-76 | the joined text opens with the first piece followed by the separator and closes with the last piece |
| Text.IntToString | lib/api/alerts.ts:17-20 | `toString` of an integer gives a numeral without leading zeros, with a '-' for a negative number, which reads back as the number |
| Text.NatToStringValue | lib/api/alerts.ts:17-20 | reading the decimal numeral of a natural number back gives the number |
| Text.Upper | components/layout/Header.tsx:33-35 | upper-casing maps every character to its ASCII upper case and leaves no lower-case letter |

## Left out

- Realtime subscriptions (hooks/useAlerts.ts, hooks/useSearches.ts): Supabase channel plumbing plus cache invalidation, with no logic of the repository's own.
- Network, auth and cookie I/O: `fetch`, Supabase `getUser`, `getSession` and `exchangeCodeForSession`, and the middleware's cookie writes. Their outcomes are inputs.
- AuthMiddleware.Matched: `:path*` is read as the root or the root followed by '/' and anything; Next.js path normalisation, such as a trailing slash, is not modelled.
- Library behaviour. These are parameters or pre-computed inputs:
  - react-query internals such as `cancelQueries`;
  - zod's error objects;
  - `encodeURIComponent` and `URLSearchParams` escaping;
  - URL parsing and serialisation;
  - JSON parsing and `JSON.stringify`.
- Initials, Text.Upper: upper-casing is ASCII only; JavaScript's full Unicode `toUpperCase` is not modelled.
- Grades, prices, limits and offsets are exact numbers: floating point, NaN, infinities and non-integral page sizes are not modelled.
- React effects, the 300 ms search debounce, toast timers and the click-outside handler: their outcomes are events of the autocomplete state machine, with no timing.
- Toast ids come from the clock and randomness in the source; the model takes the id as an argument.
- The country table's flag glyphs are presentation and are left out.
- Logging: the `console.warn` of lib/ebay/campaign-url.ts:28 and the `console.error` calls of middleware.ts:38, app/auth/callback/route.ts:18 and components/search/SeriesAutocomplete.tsx:59 have no effect on any result and are not modelled.
- SeriesAutocomplete.SearchGate: lengths count Unicode characters, not UTF-16 code units. A query of one astral-plane character (an emoji) has `length` 2 in JavaScript and is searched; the model treats it as too short.
- Initials: `slice(0, 2)` and `[0]` count Unicode characters, not UTF-16 code units. For a name starting with an astral-plane character the code keeps one character, or a lone surrogate half, where the model keeps two characters or the whole character.
- SearchesCache.InFlightHidesDeleted: holds right after `onMutate` only. While the delete is in flight, another mutation's rollback of its own snapshot, or a refetch after an invalidation by another mutation or the realtime channel, can put the deleted search back in the list; overlapping mutations and refetches are not modelled.
- SearchValidation.Message: the default messages of the schema library (a null series, a grade out of range) are not modelled; they are `None`.
- ApiClient.MergeHeaders: header names are compared exactly; the case-insensitive merging of the `Headers` class, and options headers given as a `Headers` instance or an array of pairs, are not modelled.
- SentrySanitiser.BeforeSend: a request URL that fails to parse makes `new URL` throw; the model takes the URL already parsed. Any normalisation that re-serialising applies to the rest of the URL is not modelled. An empty URL string, which the code skips, is modelled as an absent URL.
- SentrySanitiser.RedactHeaders: header lookups are exact, case-sensitive names, as on a plain object.
- AuthCallback.Callback: whether `new URL(next, request.url)` parses is a parameter, `parses`; the WHATWG URL parser is not modelled. The failure target, a path, is taken to resolve against any request URL.
- ApiClient.HandleResponse: the error classes are modelled by their fields; stack traces, `name` and the `as T` cast are not. How a number message is written (`Number.prototype.toString`) is a parameter, `showNum`.
- The eBay item link's doc comment shows a rover link; the model follows the code, which decorates the direct item URL.

## Findings

| source | as written | input that shows it | evidently intended | confidence | as-written member | corrected member |
|---|---|---|---|---|---|---|
| components/layout/Header.tsx:33 | `parts[0][0] + parts[1][0]` indexes the first characters of the first two segments without checking they exist | "john.@x.com" gives "JUNDEFINED"; "._@x.com" throws a TypeError (`NaN.toUpperCase`) | an empty segment contributes no letter: "J" and "" | not executed | Initials.InitialsAsWritten, Initials.UserInitials, Initials.TrailingSeparatorShowsUndefined, Initials.SeparatorsOnlyThrows | Initials.Initials, Initials.UserInitialsCorrected, Initials.CorrectionAgrees |

=== FILE: alerts_query.dfy ===
/**
 * The query string of the alerts list request (lib/api/alerts.ts,
 * `alertsAPI.list`): which filters are sent, in which order, and when the
 * URL carries no query at all.
 */
module AlertsQuery {
  import opened Wrappers
  import opened Text

  datatype Platform = Ebay | Heritage | Comiclink | AllPlatforms
  datatype MatchType = DirectMatch | NearMiss | AllMatches

  function PlatformName(p: Platform): string {
    match p
    case Ebay => "ebay"
    case Heritage => "heritage"
    case Comiclink => "comiclink"
    case AllPlatforms => "all"
  }

  function MatchTypeName(m: MatchType): string {
    match m
    case DirectMatch => "direct_match"
    case NearMiss => "near_miss"
    case AllMatches => "all"
  }

  /** `AlertFilters`; each field may be absent. Page sizes are integral numbers. */
  datatype AlertFilters = AlertFilters(
    limit: Option<int>,
    offset: Option<int>,
    platform: Option<Platform>,
    matchType: Option<MatchType>,
    searchId: Option<string>)

  const NoFilters := AlertFilters(None, None, None, None, None)

  /** The five query parameters, declared in the order the source appends them. */
  datatype ParamName = Limit | Offset | PlatformParam | MatchTypeParam | SearchIdParam

  function Key(n: ParamName): string {
    match n
    case Limit => "limit"
    case Offset => "offset"
    case PlatformParam => "platform"
    case MatchTypeParam => "matchType"
    case SearchIdParam => "searchId"
  }

  function Rank(n: ParamName): (k: nat)
    ensures k < 5
  {
    match n
    case Limit => 0
    case Offset => 1
    case PlatformParam => 2
    case MatchTypeParam => 3
    case SearchIdParam => 4
  }

  function NameAt(k: nat): (n: ParamName)
    requires k < 5
    ensures Rank(n) == k
  {
    if k == 0 then Limit
    else if k == 1 then Offset
    else if k == 2 then PlatformParam
    else if k == 3 then MatchTypeParam
    else SearchIdParam
  }

  lemma RankInjective(a: ParamName, b: ParamName)
    ensures Rank(a) == Rank(b) ==> a == b
  {
  }

  type Param = (ParamName, string)

  /** Some pair of `ps` carries `name` and `value`. */
  predicate Has(ps: seq<Param>, name: ParamName, value: string) {
    exists i :: 0 <= i < |ps| && ps[i] == (name, value)
  }

  /**
   * The value sent for the parameter `name`, or `None` when it is left out:
   * limit and offset whenever defined (0 included), platform and match type
   * unless absent or 'all', the search id unless absent or empty.
   */
  function Emitted(f: AlertFilters, name: ParamName): (v: Option<string>)
    // a parameter is never sent with an empty value
    ensures v.Some? ==> v.value != []
    // a parameter the caller did not give is never sent
    ensures v.Some? ==> match name
      case Limit => f.limit.Some?
      case Offset => f.offset.Some?
      case PlatformParam => f.platform.Some?
      case MatchTypeParam => f.matchType.Some?
      case SearchIdParam => f.searchId.Some?
  {
    match name
    case Limit =>
      if f.limit.Some? then Some(IntToString(f.limit.value)) else None
    case Offset =>
      if f.offset.Some? then Some(IntToString(f.offset.value)) else None
    case PlatformParam =>
      if f.platform.Some? && f.platform.value != AllPlatforms then Some(PlatformName(f.platform.value)) else None
    case MatchTypeParam =>
      if f.matchType.Some? && f.matchType.value != AllMatches then Some(MatchTypeName(f.matchType.value)) else None
    case SearchIdParam =>
      if f.searchId.Some? && f.searchId.value != [] then Some(f.searchId.value) else None
  }

  /** The values of the five parameters, indexed by rank. */
  function EmittedByRank(f: AlertFilters): (vs: seq<Option<string>>)
    ensures |vs| == 5
    ensures forall n :: vs[Rank(n)] == Emitted(f, n)
  {
    [Emitted(f, Limit), Emitted(f, Offset), Emitted(f, PlatformParam),
     Emitted(f, MatchTypeParam), Emitted(f, SearchIdParam)]
  }

  /** The pairs appended for the parameters of rank `k` and above, given their values by rank. */
  function AppendFrom(vs: seq<Option<string>>, k: nat): seq<Param>
    requires |vs| == 5 && k <= 5
    decreases 5 - k
  {
    if k == 5 then []
    else
      var rest := AppendFrom(vs, k + 1);
      if vs[k].Some? then [(NameAt(k), vs[k].value)] + rest else rest
  }

  /** The appended pairs follow the fixed order, one at most per parameter, each with its value. */
  lemma {:induction false} AppendFromSound(vs: seq<Option<string>>, k: nat)
    requires |vs| == 5 && k <= 5
    ensures |AppendFrom(vs, k)| <= 5 - k
    ensures forall i :: 0 <= i < |AppendFrom(vs, k)| ==>
      k <= Rank(AppendFrom(vs, k)[i].0) && vs[Rank(AppendFrom(vs, k)[i].0)] == Some(AppendFrom(vs, k)[i].1)
    ensures forall i, j :: 0 <= i < j < |AppendFrom(vs, k)| ==> Rank(AppendFrom(vs, k)[i].0) < Rank(AppendFrom(vs, k)[j].0)
    decreases 5 - k
  {
    if k < 5 {
      AppendFromSound(vs, k + 1);
      var rest := AppendFrom(vs, k + 1);
      if vs[k].Some? {
        var head := (NameAt(k), vs[k].value);
        assert Rank(head.0) == k && vs[k] == Some(head.1);
        var ps := [head] + rest;
        assert AppendFrom(vs, k) == ps;
        assert forall i :: 1 <= i < |ps| ==> ps[i] == rest[i - 1];
      } else {
        assert AppendFrom(vs, k) == rest;
      }
    }
  }

  /** Every parameter of rank `k` or above that has a value is appended with it. */
  lemma AppendFromComplete(vs: seq<Option<string>>, k: nat)
    requires |vs| == 5 && k <= 5
    ensures forall n :: k <= Rank(n) && vs[Rank(n)].Some? ==> Has(AppendFrom(vs, k), n, vs[Rank(n)].value)
  {
    forall n | k <= Rank(n) && vs[Rank(n)].Some?
      ensures Has(AppendFrom(vs, k), n, vs[Rank(n)].value)
    {
      AppendFromHas(vs, k, n);
    }
  }

  /** The parameter `n`, if it has a value and its rank is `k` or above, is appended with it. */
  lemma {:induction false} AppendFromHas(vs: seq<Option<string>>, k: nat, n: ParamName)
    requires |vs| == 5 && k <= Rank(n)
    requires vs[Rank(n)].Some?
    ensures Has(AppendFrom(vs, k), n, vs[Rank(n)].value)
    decreases 5 - k
  {
    var ps := AppendFrom(vs, k);
    var rest := AppendFrom(vs, k + 1);
    var v := vs[Rank(n)].value;
    if Rank(n) == k {
      RankInjective(n, NameAt(k));
      assert ps == [(n, v)] + rest;
      assert ps[0] == (n, v);
    } else {
      AppendFromHas(vs, k + 1, n);
      var i :| 0 <= i < |rest| && rest[i] == (n, v);
      if vs[k].Some? {
        assert ps == [(NameAt(k), vs[k].value)] + rest;
        assert ps[i + 1] == (n, v);
      } else {
        assert ps == rest;
      }
    }
  }

  /** The pairs appended to the `URLSearchParams`, for `params` absent (`None`) or present. */
  function QueryParams(params: Option<AlertFilters>): (ps: seq<Param>)
    // at most one pair per parameter, in the fixed order
    ensures |ps| <= 5
    ensures forall i, j :: 0 <= i < j < |ps| ==> Rank(ps[i].0) < Rank(ps[j].0)
    // exactly the parameters that have a value, each with that value
    ensures forall i :: 0 <= i < |ps| ==> Emitted(params.GetOr(NoFilters), ps[i].0) == Some(ps[i].1)
    ensures forall n :: Emitted(params.GetOr(NoFilters), n).Some? ==>
      Has(ps, n, Emitted(params.GetOr(NoFilters), n).value)
  {
    AppendFromSound(EmittedByRank(params.GetOr(NoFilters)), 0);
    AppendFromComplete(EmittedByRank(params.GetOr(NoFilters)), 0);
    AppendFrom(EmittedByRank(params.GetOr(NoFilters)), 0)
  }

  /**
   * `URLSearchParams.toString()`: the pairs as `name=value` joined by '&',
   * each side passed through the form-urlencoded escaping `escape`, which
   * belongs to the URL library and is a parameter here.
   */
  function Serialize(ps: seq<Param>, escape: string -> string): (q: string)
    ensures q == [] <==> ps == []
  {
    if ps == [] then []
    else
      var head := escape(Key(ps[0].0)) + "=" + escape(ps[0].1);
      if |ps| == 1 then head else head + "&" + Serialize(ps[1..], escape)
  }

  /** The URL `alertsAPI.list` requests. */
  function ListUrl(params: Option<AlertFilters>, escape: string -> string): (url: string)
    ensures QueryParams(params) == [] ==> url == "/api/alerts"
    ensures QueryParams(params) != [] ==>
      url == "/api/alerts?" + Serialize(QueryParams(params), escape)
  {
    var queryString := Serialize(QueryParams(params), escape);
    if queryString != [] then "/api/alerts?" + queryString else "/api/alerts"
  }

  /** A parameter is sent with value `v` exactly when it has that value. */
  lemma SentIffEmitted(params: Option<AlertFilters>, name: ParamName, v: string)
    ensures Has(QueryParams(params), name, v) <==> Emitted(params.GetOr(NoFilters), name) == Some(v)
  {
  }

  /** With nothing to send, whether `params` is absent or all its filters are defaults, there is no '?'. */
  lemma NoFiltersNoQuery(params: Option<AlertFilters>, escape: string -> string)
    requires params.None? || (
      var f := params.value;
      && f.limit.None? && f.offset.None?
      && (f.platform.None? || f.platform.value == AllPlatforms)
      && (f.matchType.None? || f.matchType.value == AllMatches)
      && (f.searchId.None? || f.searchId.value == []))
    ensures ListUrl(params, escape) == "/api/alerts"
  {
    var vs := EmittedByRank(params.GetOr(NoFilters));
    assert forall k :: 0 <= k < 5 ==> vs[k] == vs[Rank(NameAt(k))];
    NothingEmittedNothingAppended(vs, 0);
  }

  lemma {:induction false} NothingEmittedNothingAppended(vs: seq<Option<string>>, k: nat)
    requires |vs| == 5 && k <= 5
    requires forall i :: 0 <= i < 5 ==> vs[i].None?
    ensures AppendFrom(vs, k) == []
    decreases 5 - k
  {
    if k < 5 {
      NothingEmittedNothingAppended(vs, k + 1);
    }
  }

  /** A page of 20 from offset 0 with the 'all' platform and an empty search id: only limit and offset. */
  lemma ExampleFirstPage()
    ensures QueryParams(Some(AlertFilters(Some(20), Some(0), Some(AllPlatforms), None, Some(""))))
      == [(Limit, "20"), (Offset, "0")]
  {
    var f := AlertFilters(Some(20), Some(0), Some(AllPlatforms), None, Some(""));
    var vs := EmittedByRank(f);
    assert IntToString(20) == "20";
    assert vs == [Some("20"), Some("0"), None, None, None];
    assert AppendFrom(vs, 2) == [];
  }
}

=== FILE: api_client.dfy ===
/**
 * The REST client (lib/api/client.ts): where requests go, which headers they
 * carry, how a response becomes a value or an `APIError`, and when `post` and
 * `patch` send a body. The network, the session lookup and JSON parsing are
 * outside the model: the session token and the parsed body (or its failure)
 * are inputs, and `JSON.stringify` is a parameter.
 */
module ApiClient {
  import opened Wrappers
  import opened Text

  // ----- Base URL -----

  /** Where the code runs: on the server (with `NEXT_PUBLIC_API_URL`) or in a browser at a hostname. */
  datatype Env = Server(apiUrl: Option<string>) | Browser(hostname: string)

  const LocalApi := "http://localhost:3000"

  /** `getAPIBaseURL`. */
  function BaseUrl(env: Env): (r: string)
    ensures env.Server? && env.apiUrl.Some? && env.apiUrl.value != [] ==> r == env.apiUrl.value
    ensures env.Server? && (env.apiUrl.None? || env.apiUrl.value == []) ==> r == LocalApi
    ensures env.Browser? && (env.hostname == "localhost" || env.hostname == "127.0.0.1") ==> r == LocalApi
    ensures env.Browser? ==> "http://" <= r
  {
    match env
    case Server(apiUrl) => if apiUrl.Some? && apiUrl.value != [] then apiUrl.value else LocalApi
    case Browser(h) =>
      if h == "localhost" || h == "127.0.0.1" then LocalApi
      else "http://" + h + ":3000"
  }

  /** The host part of a browser base URL, between "http://" and the final ":3000". */
  function HostOf(url: string): string
    requires |url| >= 12
  {
    url[7..|url| - 5]
  }

  /** In a browser the API is on port 3000 of the page's own host, except that loopback names become "localhost". */
  lemma BrowserSameHost(h: string)
    ensures BaseUrl(Browser(h)) == "http://" + HostOf(BaseUrl(Browser(h))) + ":3000"
    ensures h != "127.0.0.1" ==> HostOf(BaseUrl(Browser(h))) == h
    ensures h == "127.0.0.1" ==> HostOf(BaseUrl(Browser(h))) == "localhost"
  {
    var u := BaseUrl(Browser(h));
    if h == "localhost" || h == "127.0.0.1" {
      assert u == "http://" + "localhost" + ":3000";
    } else {
      assert u == "http://" + h + ":3000";
      assert u[7..|u| - 5] == h;
    }
  }

  /** The request URL: base followed by the endpoint. */
  function RequestUrl(env: Env, endpoint: string): (r: string)
    ensures BaseUrl(env) <= r && r[|BaseUrl(env)|..] == endpoint
  {
    BaseUrl(env) + endpoint
  }

  // ----- Headers -----

  type Headers = map<string, string>

  /** The headers sent: JSON content type, the bearer token when the session has a non-empty one, then the caller's headers. */
  function MergeHeaders(token: Option<string>, caller: Option<Headers>): (r: Headers)
    // the caller's headers always win
    ensures caller.Some? ==> forall k :: k in caller.value ==> k in r && r[k] == caller.value[k]
    ensures "Content-Type" in r
    ensures (caller.None? || "Content-Type" !in caller.value) ==> r["Content-Type"] == "application/json"
    // Authorization comes from the token unless the caller sets it
    ensures (caller.None? || "Authorization" !in caller.value) ==>
      (("Authorization" in r) <==> token.Some? && token.value != [])
    ensures (caller.None? || "Authorization" !in caller.value) && token.Some? && token.value != [] ==>
      r["Authorization"] == "Bearer " + token.value
    // nothing else is added
    ensures forall k :: k in r ==> k == "Content-Type" || k == "Authorization" || (caller.Some? && k in caller.value)
  {
    var defaults := map["Content-Type" := "application/json"];
    var auth := if token.Some? && token.value != [] then defaults["Authorization" := "Bearer " + token.value] else defaults;
    if caller.Some? then auth + caller.value else auth
  }

  /** Without caller headers, a request is authenticated exactly when the session has a token. */
  lemma AuthorizationIffToken(token: Option<string>)
    ensures ("Authorization" in MergeHeaders(token, None)) <==> token.Some? && token.value != []
    ensures |MergeHeaders(token, None)| == if token.Some? && token.value != [] then 2 else 1
  {
    var r := MergeHeaders(token, None);
    if token.Some? && token.value != [] {
      assert r.Keys == {"Content-Type", "Authorization"};
    } else {
      assert r.Keys == {"Content-Type"};
    }
  }

  // ----- Responses -----

  /** A parsed JSON value. */
  datatype Json =
    | JNull
    | JBool(b: bool)
    | JNum(n: real)
    | JStr(s: string)
    | JArr(items: seq<Json>)
    | JObj(fields: map<string, Json>)

  /** JavaScript truthiness of a value; `None` is `undefined`. */
  predicate Truthy(v: Option<Json>) {
    match v
    case None => false
    case Some(JNull) => false
    case Some(JBool(b)) => b
    case Some(JNum(n)) => n != 0.0
    case Some(JStr(s)) => s != []
    case Some(_) => true
  }

  /** `v?.name`: a field of an object, `undefined` for anything else. */
  function Field(v: Option<Json>, name: string): (r: Option<Json>)
    ensures r.Some? ==> v.Some? && v.value.JObj? && name in v.value.fields
  {
    if v.Some? && v.value.JObj? && name in v.value.fields then Some(v.value.fields[name]) else None
  }

  /** `a || b` on values. */
  function Or(a: Option<Json>, b: Json): (r: Json)
    ensures Truthy(a) ==> r == a.value
    ensures !Truthy(a) ==> r == b
  {
    if Truthy(a) then a.value else b
  }

  predicate IsOk(status: int) {
    200 <= status <= 299
  }

  /** A response: its status, status text and body, parsed (`None` when it is not JSON). */
  datatype Response = Response(status: int, statusText: string, body: Option<Json>)

  /**
   * Whether `String(v)` throws. A parsed object with its own "toString" key
   * has a `toString` that cannot be called, and the `valueOf` it inherits
   * returns the object itself, so the conversion throws a TypeError; an array
   * throws when `join` meets such an item at any depth.
   */
  predicate Unprintable(v: Json) {
    match v
    case JObj(fields) => "toString" in fields
    case JArr(items) => exists i :: 0 <= i < |items| && Unprintable(items[i])
    case _ => false
  }

  /**
   * `String(v)`, as the `Error` constructor applies it to its message, or
   * `None` when the conversion throws. How a number is written is
   * `Number.prototype.toString`, a parameter here. An array is its items
   * joined by ",", with null items written as nothing; any other object is
   * "[object Object]".
   */
  function JsString(v: Json, showNum: real -> string): (r: Option<string>)
    ensures r.None? <==> Unprintable(v)
    ensures v.JStr? ==> r == Some(v.s)
    ensures v.JObj? && "toString" !in v.fields ==> r == Some("[object Object]")
    ensures v.JArr? && v.items == [] ==> r == Some([])
  {
    match v
    case JNull => Some("null")
    case JBool(b) => Some(if b then "true" else "false")
    case JNum(n) => Some(showNum(n))
    case JStr(s) => Some(s)
    case JArr(items) =>
      var parts := seq(|items|, i requires 0 <= i < |items| => if items[i].JNull? then Some([]) else JsString(items[i], showNum));
      // each item's conversion throws exactly when the item is unprintable
      assert forall i :: 0 <= i < |items| ==> (parts[i].None? <==> Unprintable(items[i]));
      if exists i :: 0 <= i < |parts| && parts[i].None? then None
      else Some(Join(seq(|parts|, i requires 0 <= i < |parts| => parts[i].GetOr([])), ','))
    case JObj(fields) => if "toString" in fields then None else Some("[object Object]")
  }

  /**
   * What `fetchAPI` resolves to or rejects with; an `APIError` keeps its code
   * as given and its message as a string. `NullErrorBody` and
   * `MessageUnprintable` are the TypeErrors thrown while building the error.
   */
  datatype Outcome =
    | Value(v: Json)
    | ApiError(status: int, code: Json, message: string, details: Option<Json>)
    | BodyNotJson
    | NullErrorBody
    | MessageUnprintable

  predicate Resolves(o: Outcome) {
    o.Value?
  }

  /** The `error.message` of a parsed error body, `undefined` when there is none. */
  function MessageField(body: Option<Json>): Option<Json> {
    Field(Field(body, "error"), "message")
  }

  /** The response handling of `fetchAPI`; `showNum` writes a number as JavaScript does. */
  function HandleResponse(resp: Response, showNum: real -> string): (r: Outcome)
    // errors carry the response's status and only come from non-2xx responses
    ensures r.ApiError? ==> r.status == resp.status && !IsOk(resp.status)
    ensures !IsOk(resp.status) && resp.body.None? ==>
      r == ApiError(resp.status, JStr("UNKNOWN_ERROR"), "HTTP " + IntToString(resp.status) + ": " + resp.statusText, None)
    // `errorData.error` on a JSON null throws a TypeError, not an APIError
    ensures !IsOk(resp.status) && resp.body == Some(JNull) ==> r == NullErrorBody
    // so does a message whose string conversion throws
    ensures !IsOk(resp.status) && resp.body.Some? && resp.body.value != JNull ==>
      (r == MessageUnprintable <==> Truthy(MessageField(resp.body)) && Unprintable(MessageField(resp.body).value))
    ensures !IsOk(resp.status) && resp.body.Some? && resp.body.value != JNull && r != MessageUnprintable ==>
      r.ApiError? && r.details == Field(Field(resp.body, "error"), "details") &&
      (Truthy(Field(Field(resp.body, "error"), "code")) ==> r.code == Field(Field(resp.body, "error"), "code").value) &&
      (!Truthy(Field(Field(resp.body, "error"), "code")) ==> r.code == JStr("API_ERROR")) &&
      // the message is the string form of the chosen value
      (Truthy(MessageField(resp.body)) ==> Some(r.message) == JsString(MessageField(resp.body).value, showNum)) &&
      (!Truthy(MessageField(resp.body)) ==> r.message == "An error occurred")
    ensures resp.status == 204 ==> r == Value(JObj(map[]))
    ensures IsOk(resp.status) && resp.status != 204 ==>
      if resp.body.Some? then r == Value(resp.body.value) else r == BodyNotJson
  {
    if !IsOk(resp.status) then
      match resp.body
      case None =>
        ApiError(resp.status, JStr("UNKNOWN_ERROR"), "HTTP " + IntToString(resp.status) + ": " + resp.statusText, None)
      case Some(JNull) => NullErrorBody
      case Some(data) =>
        var e := Field(Some(data), "error");
        match JsString(Or(Field(e, "message"), JStr("An error occurred")), showNum)
        case None => MessageUnprintable
        case Some(message) => ApiError(resp.status, Or(Field(e, "code"), JStr("API_ERROR")), message, Field(e, "details"))
    else if resp.status == 204 then Value(JObj(map[]))
    else match resp.body
      case Some(v) => Value(v)
      case None => BodyNotJson
  }

  /** A request succeeds exactly when the status is 2xx and the body is JSON or the status is 204. */
  lemma ResolvesIff(resp: Response, showNum: real -> string)
    ensures Resolves(HandleResponse(resp, showNum)) <==> IsOk(resp.status) && (resp.status == 204 || resp.body.Some?)
  {
  }

  /**
   * Every `APIError` has a truthy code. Its message is empty only when the
   * server sent an array as the message: the `||` default catches every
   * other falsy or missing message, and no other truthy value converts to
   * the empty string.
   */
  lemma ErrorsAlwaysExplained(resp: Response, showNum: real -> string)
    requires forall n :: showNum(n) != []
    ensures HandleResponse(resp, showNum).ApiError? ==> Truthy(Some(HandleResponse(resp, showNum).code))
    ensures HandleResponse(resp, showNum).ApiError? && HandleResponse(resp, showNum).message == [] ==>
      MessageField(resp.body).Some? && MessageField(resp.body).value.JArr?
  {
  }

  /**
   * Array messages that are truthy yet convert to the empty string: `[]`,
   * `[""]` and `[null]` give an `APIError` whose message is empty, and an
   * empty object gives "[object Object]".
   */
  lemma ArrayMessagesBlank(status: int, showNum: real -> string)
    requires !IsOk(status)
    ensures HandleResponse(Response(status, "", Some(ErrorBody(JArr([])))), showNum) ==
      ApiError(status, JStr("API_ERROR"), [], None)
    ensures HandleResponse(Response(status, "", Some(ErrorBody(JArr([JStr([])])))), showNum) ==
      ApiError(status, JStr("API_ERROR"), [], None)
    ensures HandleResponse(Response(status, "", Some(ErrorBody(JArr([JNull])))), showNum) ==
      ApiError(status, JStr("API_ERROR"), [], None)
    ensures HandleResponse(Response(status, "", Some(ErrorBody(JObj(map[])))), showNum) ==
      ApiError(status, JStr("API_ERROR"), "[object Object]", None)
  {
    ErrorBodyMessage(status, JArr([]), showNum);
    ErrorBodyMessage(status, JArr([JStr([])]), showNum);
    SingleItemArray(JStr([]), showNum);
    ErrorBodyMessage(status, JArr([JNull]), showNum);
    SingleItemArray(JNull, showNum);
    ErrorBodyMessage(status, JObj(map[]), showNum);
  }

  /** A one-item array converts as its item does, with null written as nothing. */
  lemma SingleItemArray(x: Json, showNum: real -> string)
    ensures JsString(JArr([x]), showNum) == if x.JNull? then Some([]) else JsString(x, showNum)
  {
    assert Join([if x.JNull? then [] else JsString(x, showNum).GetOr([])], ',') == if x.JNull? then [] else JsString(x, showNum).GetOr([]);
  }

  /**
   * A message object with its own "toString" key, alone or inside an array,
   * makes `new APIError` throw: the request rejects with a TypeError.
   */
  lemma ToStringKeyThrows(status: int, showNum: real -> string)
    requires !IsOk(status)
    ensures HandleResponse(Response(status, "", Some(ErrorBody(JObj(map["toString" := JStr("x")])))), showNum) == MessageUnprintable
    ensures HandleResponse(Response(status, "", Some(ErrorBody(JArr([JStr("a"), JObj(map["toString" := JStr("x")])])))), showNum) == MessageUnprintable
  {
    ErrorBodyMessage(status, JObj(map["toString" := JStr("x")]), showNum);
    var items := [JStr("a"), JObj(map["toString" := JStr("x")])];
    assert Unprintable(items[1]);
    ErrorBodyMessage(status, JArr(items), showNum);
  }

  /** A body `{"error": {"message": m}}`. */
  function ErrorBody(message: Json): Json {
    JObj(map["error" := JObj(map["message" := message])])
  }

  /**
   * A truthy message in an error body with no code becomes the message of an
   * `APIError` with the default code, by string conversion, unless the
   * conversion throws.
   */
  lemma ErrorBodyMessage(status: int, message: Json, showNum: real -> string)
    requires !IsOk(status) && Truthy(Some(message))
    ensures HandleResponse(Response(status, "", Some(ErrorBody(message))), showNum).ApiError? <==> !Unprintable(message)
    ensures Unprintable(message) ==> HandleResponse(Response(status, "", Some(ErrorBody(message))), showNum) == MessageUnprintable
    ensures !Unprintable(message) ==>
      HandleResponse(Response(status, "", Some(ErrorBody(message))), showNum) ==
      ApiError(status, JStr("API_ERROR"), JsString(message, showNum).value, None)
  {
    assert MessageField(Some(ErrorBody(message))) == Some(message);
    assert Field(Field(Some(ErrorBody(message)), "error"), "code") == None;
  }

  /** A non-2xx response whose body has no `error` object falls back to both defaults. */
  lemma BareErrorBodyDefaults(status: int, statusText: string, body: Json, showNum: real -> string)
    requires !IsOk(status) && body != JNull
    requires !(body.JObj? && "error" in body.fields && body.fields["error"].JObj?)
    ensures HandleResponse(Response(status, statusText, Some(body)), showNum) ==
      ApiError(status, JStr("API_ERROR"), "An error occurred", None)
  {
  }

  // ----- Request options -----

  datatype Method = Get | Post | Patch | Delete

  /** The options passed to `fetch`; `body` is the serialised payload. */
  datatype Options = Options(httpMethod: Option<Method>, body: Option<string>, headers: Option<Headers>)

  /** `get` and `delete`: the caller's options with the method set; a body in the options is kept. */
  function WithMethod(opts: Options, m: Method): (r: Options)
    requires m == Get || m == Delete
    ensures r.httpMethod == Some(m) && r.body == opts.body && r.headers == opts.headers
  {
    opts.(httpMethod := Some(m))
  }

  /** `post` and `patch`: the body is `JSON.stringify(data)` for truthy data and absent otherwise. */
  function WithPayload(opts: Options, m: Method, data: Option<Json>, stringify: Json -> string): (r: Options)
    requires m == Post || m == Patch
    ensures r.httpMethod == Some(m) && r.headers == opts.headers
    ensures r.body.Some? <==> Truthy(data)
    ensures Truthy(data) ==> r.body == Some(stringify(data.value))
  {
    opts.(httpMethod := Some(m), body := if Truthy(data) then Some(stringify(data.value)) else None)
  }

  /** Falsy payloads that are valid JSON — 0, "", false, null — are sent without a body. */
  lemma FalsyPayloadsDropped(opts: Options, stringify: Json -> string)
    ensures WithPayload(opts, Post, Some(JNum(0.0)), stringify).body.None?
    ensures WithPayload(opts, Post, Some(JStr("")), stringify).body.None?
    ensures WithPayload(opts, Post, Some(JBool(false)), stringify).body.None?
    ensures WithPayload(opts, Patch, Some(JNull), stringify).body.None?
    ensures WithPayload(opts, Patch, Some(JObj(map[])), stringify).body == Some(stringify(JObj(map[])))
  {
  }
}

=== FILE: auth_callback.dfy ===
/**
 * The redirect decision of the sign-in callback (app/auth/callback/route.ts).
 * The code-for-session exchange with the auth service and the URL parser are
 * parameters: the exchange succeeds or reports an error for a given code, and
 * the parser accepts or rejects a redirect target.
 */
module AuthCallback {
  import opened Wrappers

  datatype Exchange = ExchangeOk | ExchangeError(message: string)

  const FailureTarget := "/login?error=verification_failed"

  /** `searchParams.get('next') ?? '/dashboard'`: only a missing parameter is replaced. */
  function NextTarget(next: Option<string>): (t: string)
    ensures next.Some? ==> t == next.value
    ensures next.None? ==> t == "/dashboard"
  {
    next.GetOr("/dashboard")
  }

  /** What `GET` does: redirect to a target, or reject because `new URL` threw. */
  datatype Response = Redirect(target: string) | Rejected

  /**
   * `GET`: where the callback redirects, given the `code` and `next` query
   * parameters; the exchange is consulted only for a non-empty code.
   * `parses(t)` says whether `new URL(t, request.url)` succeeds, a library
   * question and a parameter here; an unparsable target such as "//" makes
   * it throw, and `GET` rejects with no redirect. The failure target is a
   * path, which always resolves against the request URL.
   */
  function Callback(code: Option<string>, next: Option<string>, exchange: string -> Exchange,
                    parses: string -> bool): (r: Response)
    ensures (code.None? || code.value == []) ==> r == Redirect(FailureTarget)
    ensures code.Some? && code.value != [] && exchange(code.value).ExchangeError? ==> r == Redirect(FailureTarget)
    ensures code.Some? && code.value != [] && exchange(code.value).ExchangeOk? ==>
      r == if parses(NextTarget(next)) then Redirect(NextTarget(next)) else Rejected
  {
    var nextPage := NextTarget(next);
    if code.Some? && code.value != [] then
      match exchange(code.value)
      case ExchangeOk => if parses(nextPage) then Redirect(nextPage) else Rejected
      case ExchangeError(_) => Redirect(FailureTarget)
    else Redirect(FailureTarget)
  }

  /**
   * The callback sends the user on from the login page exactly when a
   * non-empty code is exchanged successfully, and rejects exactly when, in
   * addition, the `next` target does not parse.
   */
  lemma SuccessIff(code: Option<string>, next: Option<string>, exchange: string -> Exchange, parses: string -> bool)
    requires next.Some? ==> next.value != FailureTarget
    ensures Callback(code, next, exchange, parses) != Redirect(FailureTarget) <==>
      code.Some? && code.value != [] && exchange(code.value).ExchangeOk?
    ensures Callback(code, next, exchange, parses).Rejected? <==>
      code.Some? && code.value != [] && exchange(code.value).ExchangeOk? && !parses(NextTarget(next))
  {
  }

  /**
   * An empty `next` is kept, not defaulted to the dashboard: the redirect
   * target is the empty relative URL, which resolves against the request to
   * the callback URL itself, query and all.
   */
  lemma EmptyNextKept(exchange: string -> Exchange, parses: string -> bool)
    requires exchange("abc") == ExchangeOk && parses("")
    ensures Callback(Some("abc"), Some(""), exchange, parses) == Redirect("")
  {
  }

  /**
   * A `next` of "//" (sent as `next=%2F%2F`) does not parse as a URL: after a
   * successful exchange `GET` throws and no redirect is sent.
   */
  lemma UnparsableNextRejects(exchange: string -> Exchange, parses: string -> bool)
    requires exchange("abc") == ExchangeOk && !parses("//")
    ensures Callback(Some("abc"), Some("//"), exchange, parses) == Rejected
  {
  }
}

=== FILE: ebay_campaign.dfy ===
/**
 * eBay Partner Network links (lib/ebay/campaign-url.ts): item and search
 * URLs, with affiliate tracking parameters when a campaign id is known.
 */
module EbayCampaign {
  import opened Wrappers
  import opened Text

  /**
   * `campaignId || process.env.NEXT_PUBLIC_EBAY_CAMPAIGN_ID`, then the
   * `!campaign` test: the campaign in use, `None` when neither is a
   * non-empty string.
   */
  function Campaign(campaignId: Option<string>, envCampaign: Option<string>): (c: Option<string>)
    ensures c.Some? ==> c.value != []
    ensures campaignId.Some? && campaignId.value != [] ==> c == campaignId
    ensures !(campaignId.Some? && campaignId.value != []) ==>
      (c.Some? <==> envCampaign.Some? && envCampaign.value != []) && (c.Some? ==> c == envCampaign)
  {
    if campaignId.Some? && campaignId.value != [] then campaignId
    else if envCampaign.Some? && envCampaign.value != [] then envCampaign
    else None
  }

  const ItemBase := "https://www.ebay.com/itm/"
  const SearchBase := "https://www.ebay.com/sch/i.html?_nkw="
  const RoverBase := "https://rover.ebay.com/rover/1/711-53200-19255-0/1"

  /**
   * `buildEbayCampaignUrl`. The source writes the query as one template
   * literal; it is the text of `ItemTracking` joined by '&'.
   */
  function CampaignItemUrl(itemId: string, campaignId: Option<string>, envCampaign: Option<string>): (url: string)
    // without a campaign, the plain item URL
    ensures Campaign(campaignId, envCampaign).None? ==> url == ItemBase + itemId
    // with one, the plain item URL, '?', and the tracking parameters, whose campid is the campaign
    // and which split back apart when the campaign holds no '&'
    ensures Campaign(campaignId, envCampaign).Some? ==>
      var c := Campaign(campaignId, envCampaign).value;
      && url == ItemBase + itemId + "?" + Join(ItemTracking(c), '&')
      && Lookup(ItemTracking(c), "campid") == Some(c)
      && (Free(c, '&') ==> Split(Join(ItemTracking(c), '&'), {'&'}) == ItemTracking(c))
  {
    var campaign := Campaign(campaignId, envCampaign);
    if campaign.None? then ItemBase + itemId
    else
      var itemUrl := ItemBase + itemId;
      ItemTrackingCampaign(campaign.value);
      if Free(campaign.value, '&') then
        ItemTrackingFree(campaign.value);
        TrackingSplits(ItemTracking(campaign.value));
        itemUrl + "?" + Join(ItemTracking(campaign.value), '&')
      else
        itemUrl + "?" + Join(ItemTracking(campaign.value), '&')
  }

  /** The tracking parameters added to an item URL, in order. */
  function ItemTracking(campaign: string): seq<string> {
    ["mkcid=1", "mkrid=711-53200-19255-0", "siteid=0", "campid=" + campaign,
     "customid=", "toolid=10001", "mkevt=1"]
  }

  /**
   * `buildEbaySearchUrl`; `encode` stands for `encodeURIComponent`, a
   * library function and a parameter here.
   */
  function CampaignSearchUrl(searchQuery: string, campaignId: Option<string>, envCampaign: Option<string>,
                             encode: string -> string): (url: string)
    // without a campaign, the plain search URL of the encoded query
    ensures Campaign(campaignId, envCampaign).None? ==> url == SearchBase + encode(searchQuery)
    // with one, the rover URL, '?', and the six parameters: pub and campid are the campaign,
    // mpre is the plain search URL, not encoded a second time; they split back apart when
    // the campaign and the encoded query hold no '&'
    ensures Campaign(campaignId, envCampaign).Some? ==>
      var c := Campaign(campaignId, envCampaign).value;
      var searchUrl := SearchBase + encode(searchQuery);
      && url == RoverBase + "?" + Join(SearchTracking(c, searchUrl), '&')
      && Lookup(SearchTracking(c, searchUrl), "pub") == Some(c)
      && Lookup(SearchTracking(c, searchUrl), "campid") == Some(c)
      && Lookup(SearchTracking(c, searchUrl), "mpre") == Some(searchUrl)
      && (Free(c, '&') && Free(encode(searchQuery), '&') ==>
           Split(Join(SearchTracking(c, searchUrl), '&'), {'&'}) == SearchTracking(c, searchUrl))
  {
    var campaign := Campaign(campaignId, envCampaign);
    if campaign.None? then SearchBase + encode(searchQuery)
    else
      var searchUrl := SearchBase + encode(searchQuery);
      SearchTrackingValues(campaign.value, searchUrl);
      if Free(campaign.value, '&') && Free(encode(searchQuery), '&') then
        SearchBaseFree();
        FreeConcat(SearchBase, encode(searchQuery));
        SearchTrackingSplits(campaign.value, searchUrl);
        RoverBase + "?" + Join(SearchTracking(campaign.value, searchUrl), '&')
      else
        RoverBase + "?" + Join(SearchTracking(campaign.value, searchUrl), '&')
  }

  /** The six rover parameters of a search link, in order; `mpre` carries the search URL as is. */
  function SearchTracking(campaign: string, searchUrl: string): seq<string> {
    ["ff3=4", "pub=" + campaign, "toolid=10001", "campid=" + campaign, "customid=", "mpre=" + searchUrl]
  }

  /**
   * The value of the first `name=value` parameter of `params` with that name:
   * how a reader of a link gets a parameter back, used to state what the
   * links carry.
   */
  function Lookup(params: seq<string>, name: string): (v: Option<string>)
    ensures v.Some? ==> exists i :: 0 <= i < |params| && params[i] == name + "=" + v.value
  {
    if params == [] then None
    else if name + "=" <= params[0] then
      assert params[0] == name + "=" + params[0][|name| + 1..];
      Some(params[0][|name| + 1..])
    else Lookup(params[1..], name)
  }

  /** The first parameter named `name` is the one at `k`. */
  lemma {:induction false} LookupAt(ps: seq<string>, name: string, k: nat)
    requires k < |ps| && name + "=" <= ps[k]
    requires forall j :: 0 <= j < k ==> !(name + "=" <= ps[j])
    ensures Lookup(ps, name) == Some(ps[k][|name| + 1..])
  {
    if k > 0 {
      LookupAt(ps[1..], name, k - 1);
    }
  }

  /** A list of parameters none of which holds '&' splits back from its join. */
  lemma TrackingSplits(ps: seq<string>)
    requires |ps| >= 1
    requires forall k :: 0 <= k < |ps| ==> Free(ps[k], '&')
    ensures Split(Join(ps, '&'), {'&'}) == ps
  {
    SplitJoin(ps, '&');
  }

  /** `campid` of the item tracking parameters is the campaign. */
  lemma ItemTrackingCampaign(c: string)
    ensures Lookup(ItemTracking(c), "campid") == Some(c)
  {
    var ps := ItemTracking(c);
    var key := "campid=";
    assert key[0] == 'c' && ps[0][0] == 'm' && ps[1][0] == 'm' && ps[2][0] == 's';
    assert key <= ps[3];
    LookupAt(ps, "campid", 3);
  }

  /** No item tracking parameter holds '&' when the campaign does not. */
  lemma ItemTrackingFree(c: string)
    requires Free(c, '&')
    ensures forall k :: 0 <= k < |ItemTracking(c)| ==> Free(ItemTracking(c)[k], '&')
  {
    var ps := ItemTracking(c);
    FreeConcat("campid=", c);
    assert Free(ps[0], '&') && Free(ps[1], '&') && Free(ps[2], '&');
    assert Free(ps[4], '&') && Free(ps[5], '&') && Free(ps[6], '&');
  }

  /** `pub` and `campid` are the campaign, `mpre` the search URL as is. */
  lemma SearchTrackingValues(c: string, searchUrl: string)
    ensures Lookup(SearchTracking(c, searchUrl), "pub") == Some(c)
    ensures Lookup(SearchTracking(c, searchUrl), "campid") == Some(c)
    ensures Lookup(SearchTracking(c, searchUrl), "mpre") == Some(searchUrl)
  {
    SearchTrackingPub(c, searchUrl);
    SearchTrackingCampid(c, searchUrl);
    SearchTrackingMpre(c, searchUrl);
  }

  lemma SearchTrackingPub(c: string, searchUrl: string)
    ensures Lookup(SearchTracking(c, searchUrl), "pub") == Some(c)
  {
    var ps := SearchTracking(c, searchUrl);
    var pub := "pub=";
    // The first characters tell the parameters apart.
    assert ps[0][0] == 'f' && pub[0] == 'p';
    assert pub <= ps[1];
    LookupAt(ps, "pub", 1);
  }

  lemma SearchTrackingCampid(c: string, searchUrl: string)
    ensures Lookup(SearchTracking(c, searchUrl), "campid") == Some(c)
  {
    var ps := SearchTracking(c, searchUrl);
    var campid := "campid=";
    assert ps[0][0] == 'f' && ps[1][0] == 'p' && ps[2][0] == 't' && campid[0] == 'c';
    assert campid <= ps[3];
    LookupAt(ps, "campid", 3);
  }

  lemma SearchTrackingMpre(c: string, searchUrl: string)
    ensures Lookup(SearchTracking(c, searchUrl), "mpre") == Some(searchUrl)
  {
    var ps := SearchTracking(c, searchUrl);
    var mpre := "mpre=";
    assert ps[0][0] == 'f' && ps[1][0] == 'p' && ps[2][0] == 't' && ps[3][0] == 'c' && ps[4][0] == 'c';
    assert mpre[0] == 'm';
    assert mpre <= ps[5];
    LookupAt(ps, "mpre", 5);
  }

  /** The plain search URL before the query holds no '&'. */
  lemma SearchBaseFree()
    ensures Free(SearchBase, '&')
  {
    var host, path := "https://www.ebay.com/", "sch/i.html?_nkw=";
    assert SearchBase == host + path;
    assert Free(host, '&');
    assert Free(path, '&');
    FreeConcat(host, path);
  }

  /** A concatenation of '&'-free strings is '&'-free. */
  lemma FreeConcat(a: string, b: string)
    requires Free(a, '&') && Free(b, '&')
    ensures Free(a + b, '&')
  {
    forall i | 0 <= i < |a + b| ensures (a + b)[i] != '&' {
      if i >= |a| {
        assert (a + b)[i] == b[i - |a|];
      }
    }
  }

  /** The search tracking parameters split back from their join when neither value holds '&'. */
  lemma SearchTrackingSplits(c: string, searchUrl: string)
    requires Free(c, '&') && Free(searchUrl, '&')
    ensures Split(Join(SearchTracking(c, searchUrl), '&'), {'&'}) == SearchTracking(c, searchUrl)
  {
    var ps := SearchTracking(c, searchUrl);
    FreeConcat("pub=", c);
    FreeConcat("campid=", c);
    FreeConcat("mpre=", searchUrl);
    assert forall k :: 0 <= k < |ps| ==> Free(ps[k], '&');
    TrackingSplits(ps);
  }
}

=== FILE: grade_range.dfy ===
/**
 * The linked grade-range selector of the search form
 * (components/search/GradeRangeSelector.tsx). A grade is a JS number, here a
 * `real`; `None` is the "Any" choice. Editing one bound never leaves a
 * concrete minimum above a concrete maximum: the opposite bound follows the
 * edited one, unless either of the two is "Any".
 */
module GradeRange {
  import opened Wrappers

  type Grade = Option<real>

  datatype Range = Range(min: Grade, max: Grade)

  /** Both bounds concrete and in order, or at least one of them "Any". */
  predicate Ordered(r: Range) {
    r.min.Some? && r.max.Some? ==> r.min.value <= r.max.value
  }

  /** `handleGradeMinChange`: the new minimum, with the maximum raised to meet it when needed. */
  function SetMin(newMin: Grade, cur: Range): (r: Range)
    ensures r.min == newMin
    ensures newMin.Some? && cur.max.Some? && newMin.value > cur.max.value ==> r.max == newMin
    ensures newMin.None? || cur.max.None? || newMin.value <= cur.max.value ==> r.max == cur.max
    ensures Ordered(r)
  {
    var adjustedMax :=
      if newMin.Some? && cur.max.Some? && newMin.value > cur.max.value then newMin else cur.max;
    Range(newMin, adjustedMax)
  }

  /** `handleGradeMaxChange`: the new maximum, with the minimum lowered to meet it when needed. */
  function SetMax(newMax: Grade, cur: Range): (r: Range)
    ensures r.max == newMax
    ensures newMax.Some? && cur.min.Some? && newMax.value < cur.min.value ==> r.min == newMax
    ensures newMax.None? || cur.min.None? || newMax.value >= cur.min.value ==> r.min == cur.min
    ensures Ordered(r)
  {
    var adjustedMin :=
      if newMax.Some? && cur.min.Some? && newMax.value < cur.min.value then newMax else cur.min;
    Range(adjustedMin, newMax)
  }

  /** Repeating the same minimum edit changes nothing further. */
  lemma SetMinIdempotent(x: Grade, r: Range)
    ensures SetMin(x, SetMin(x, r)) == SetMin(x, r)
  {
  }

  /** Repeating the same maximum edit changes nothing further. */
  lemma SetMaxIdempotent(x: Grade, r: Range)
    ensures SetMax(x, SetMax(x, r)) == SetMax(x, r)
  {
  }

  /** An edit that keeps the range ordered moves nothing but the edited bound. */
  lemma SetMinMinimalChange(x: Grade, r: Range)
    ensures Ordered(Range(x, r.max)) <==> SetMin(x, r) == Range(x, r.max)
  {
  }

  lemma SetMaxMinimalChange(x: Grade, r: Range)
    ensures Ordered(Range(r.min, x)) <==> SetMax(x, r) == Range(r.min, x)
  {
  }

  function Negate(g: Grade): Grade {
    match g
    case None => None
    case Some(v) => Some(-v)
  }

  /**
   * The range seen in a mirror: bounds swapped and negated. The component
   * never does this; it is the device that relates its two handlers.
   */
  function Mirror(r: Range): (m: Range)
    ensures Ordered(m) <==> Ordered(r)
  {
    Range(Negate(r.max), Negate(r.min))
  }

  /** The maximum edit is the mirror image of the minimum edit. */
  lemma SetMaxIsMirroredSetMin(x: Grade, r: Range)
    ensures SetMax(x, r) == Mirror(SetMin(Negate(x), Mirror(r)))
  {
  }

  /** One row of `GRADE_OPTIONS`. */
  datatype GradeOption = GradeOption(value: Grade, caption: string)

  /** `GRADE_OPTIONS`: "Any", then the grading scale from 0.5 to 10.0. */
  const GradeOptions: seq<GradeOption> := [
    GradeOption(None, "Any"),
    GradeOption(Some(0.5), "0.5 - Poor"),
    GradeOption(Some(1.0), "1.0 - Fair"),
    GradeOption(Some(1.5), "1.5"),
    GradeOption(Some(2.0), "2.0 - Good"),
    GradeOption(Some(2.5), "2.5"),
    GradeOption(Some(3.0), "3.0"),
    GradeOption(Some(3.5), "3.5"),
    GradeOption(Some(4.0), "4.0 - Very Good"),
    GradeOption(Some(4.5), "4.5"),
    GradeOption(Some(5.0), "5.0"),
    GradeOption(Some(5.5), "5.5"),
    GradeOption(Some(6.0), "6.0 - Fine"),
    GradeOption(Some(6.5), "6.5"),
    GradeOption(Some(7.0), "7.0"),
    GradeOption(Some(7.5), "7.5"),
    GradeOption(Some(8.0), "8.0 - Very Fine"),
    GradeOption(Some(8.5), "8.5"),
    GradeOption(Some(9.0), "9.0 - Near Mint"),
    GradeOption(Some(9.2), "9.2"),
    GradeOption(Some(9.4), "9.4"),
    GradeOption(Some(9.6), "9.6"),
    GradeOption(Some(9.8), "9.8"),
    GradeOption(Some(10.0), "10.0 - Gem Mint")
  ]

  /** Every entry after the first holds a concrete grade, each above the one before. */
  predicate ConcreteAscending(opts: seq<GradeOption>) {
    && (forall i :: 1 <= i < |opts| ==> opts[i].value.Some?)
    && (forall i, j :: 1 <= i < j < |opts| ==> opts[i].value.value < opts[j].value.value)
  }

  /** From position `k` on: concrete grades, each above the one before, all within [lo, hi]. */
  predicate StepsUp(opts: seq<GradeOption>, k: nat, lo: real, hi: real)
    decreases |opts| - k
  {
    k >= |opts| ||
    (&& opts[k].value.Some?
     && lo <= opts[k].value.value <= hi
     && (k + 1 < |opts| ==> opts[k + 1].value.Some? && opts[k].value.value < opts[k + 1].value.value)
     && StepsUp(opts, k + 1, lo, hi))
  }

  /** The step-by-step check gives ascent between any two positions from `k` on. */
  lemma {:induction false} StepsUpAscending(opts: seq<GradeOption>, k: nat, lo: real, hi: real)
    requires StepsUp(opts, k, lo, hi)
    ensures forall i :: k <= i < |opts| ==> opts[i].value.Some? && lo <= opts[i].value.value <= hi
    ensures forall i, j :: k <= i < j < |opts| ==> opts[i].value.Some? && opts[j].value.Some? && opts[i].value.value < opts[j].value.value
    decreases |opts| - k
  {
    if k < |opts| {
      StepsUpAscending(opts, k + 1, lo, hi);
      if k + 1 < |opts| {
        forall j | k < j < |opts|
          ensures opts[k].value.value < opts[j].value.value
        {
          if j > k + 1 {
            assert opts[k + 1].value.value < opts[j].value.value;
          }
        }
      }
    }
  }

  /** The scale from position 16 on, checked one position at a time from the end. */
  lemma ScaleFromSixteen()
    ensures StepsUp(GradeOptions, 16, 0.5, 10.0)
  {
    var o := GradeOptions;
    assert StepsUp(o, 24, 0.5, 10.0);
    assert StepsUp(o, 23, 0.5, 10.0);
    assert StepsUp(o, 22, 0.5, 10.0);
    assert StepsUp(o, 21, 0.5, 10.0);
    assert StepsUp(o, 20, 0.5, 10.0);
    assert StepsUp(o, 19, 0.5, 10.0);
    assert StepsUp(o, 18, 0.5, 10.0);
    assert StepsUp(o, 17, 0.5, 10.0);
    assert StepsUp(o, 16, 0.5, 10.0);
  }

  /** The scale from position 8 on. */
  lemma ScaleFromEight()
    ensures StepsUp(GradeOptions, 8, 0.5, 10.0)
  {
    var o := GradeOptions;
    ScaleFromSixteen();
    assert StepsUp(o, 15, 0.5, 10.0);
    assert StepsUp(o, 14, 0.5, 10.0);
    assert StepsUp(o, 13, 0.5, 10.0);
    assert StepsUp(o, 12, 0.5, 10.0);
    assert StepsUp(o, 11, 0.5, 10.0);
    assert StepsUp(o, 10, 0.5, 10.0);
    assert StepsUp(o, 9, 0.5, 10.0);
    assert StepsUp(o, 8, 0.5, 10.0);
  }

  /**
   * The scale is "Any" first, then only concrete grades, strictly ascending
   * from 0.5 to 10.0; every concrete grade lies in [0.5, 10].
   */
  lemma GradeScaleShape()
    ensures |GradeOptions| == 24
    ensures GradeOptions[0].value.None? && GradeOptions[0].caption == "Any"
    ensures GradeOptions[1].value == Some(0.5) && GradeOptions[23].value == Some(10.0)
    ensures ConcreteAscending(GradeOptions)
    ensures forall i :: 1 <= i < |GradeOptions| ==> 0.5 <= GradeOptions[i].value.value <= 10.0
  {
    ScaleFromOne();
    StepsUpAscending(GradeOptions, 1, 0.5, 10.0);
  }

  lemma ScaleFromOne()
    ensures StepsUp(GradeOptions, 1, 0.5, 10.0)
  {
    var o := GradeOptions;
    ScaleFromEight();
    assert StepsUp(o, 7, 0.5, 10.0);
    assert StepsUp(o, 6, 0.5, 10.0);
    assert StepsUp(o, 5, 0.5, 10.0);
    assert StepsUp(o, 4, 0.5, 10.0);
    assert StepsUp(o, 3, 0.5, 10.0);
    assert StepsUp(o, 2, 0.5, 10.0);
    assert StepsUp(o, 1, 0.5, 10.0);
  }

  /** The auto-correction and the scale: an edit from the scale yields bounds from the scale. */
  lemma EditsStayOnScale(x: Grade, r: Range, scale: set<Grade>)
    requires x in scale && r.min in scale && r.max in scale
    ensures SetMin(x, r).min in scale && SetMin(x, r).max in scale
    ensures SetMax(x, r).min in scale && SetMax(x, r).max in scale
  {
  }

  /** Edit a minimum of 9.8 into the range 9.0 to 9.4: both bounds become 9.8. */
  lemma ExampleMinRaisesMax()
    ensures SetMin(Some(9.8), Range(Some(9.0), Some(9.4))) == Range(Some(9.8), Some(9.8))
  {
  }

  /** "Any" as the maximum is never corrected, however high the new minimum. */
  lemma ExampleAnyMaxUntouched()
    ensures SetMin(Some(9.0), Range(None, None)) == Range(Some(9.0), None)
    ensures SetMin(Some(9.0), Range(None, Some(8.0))) == Range(Some(9.0), Some(9.0))
  {
  }
}

=== FILE: initials.dfy ===
/**
 * The avatar initials of the header (components/layout/Header.tsx,
 * `getInitials`): the part of the email before the first '@', split on
 * '.', '_' and '-', gives the first letters of the first two segments, or
 * the first two letters of a name with no separator, upper-cased.
 *
 * `getInitials` indexes `parts[0][0]` and `parts[1][0]` without checking that
 * the segments are non-empty. In JavaScript a missing character is
 * `undefined`, which `+` turns into the text "undefined" next to a string,
 * and `undefined + undefined` is `NaN`, whose `toUpperCase` throws.
 * `InitialsAsWritten` models that, and `UserInitials` is the header's call
 * of it; `Initials` is the corrected helper, in which a missing character
 * contributes nothing, and `UserInitialsCorrected` the header's call of that.
 */
module Initials {
  import opened Wrappers
  import opened Text

  /** The characters of the `[._-]` pattern. */
  const Separators: set<char> := {'.', '_', '-'}

  /** `email.split('@')[0]`. */
  function LocalPart(email: string): (name: string)
    ensures Free(name, '@') && name <= email
    ensures |name| < |email| ==> email[|name|] == '@'
  {
    SplitHeadIsPrefix(email, '@');
    Split(email, {'@'})[0]
  }

  /** `name.split(/[._-]/)`. */
  function Segments(email: string): (parts: seq<string>)
    ensures |parts| >= 1
  {
    Split(LocalPart(email), Separators)
  }

  /** `s.slice(0, n)`. */
  function Take(s: string, n: nat): (r: string)
    ensures |r| == if |s| < n then |s| else n
    ensures r <= s
  {
    if |s| < n then s else s[..n]
  }

  // ----- As written -----

  /** The value of `s[0]`: a character, or `undefined` for the empty string. */
  function CharAt0(s: string): Option<char> {
    if s == [] then None else Some(s[0])
  }

  /** `a + b` on two `string | undefined` values; `None` is `NaN` (both undefined). */
  function JsConcat(a: Option<char>, b: Option<char>): (r: Option<string>)
    ensures r.None? <==> a.None? && b.None?
    ensures a.Some? && b.Some? ==> r == Some([a.value, b.value])
  {
    match (a, b)
    case (Some(x), Some(y)) => Some([x, y])
    case (Some(x), None) => Some([x] + "undefined")
    case (None, Some(y)) => Some("undefined" + [y])
    case (None, None) => None
  }

  datatype Outcome = Text(text: string) | TypeError

  /** `getInitials` as written. */
  function InitialsAsWritten(email: string): (r: Outcome)
    // it throws exactly when the first two of several segments are both empty
    ensures r.TypeError? <==>
      (|Segments(email)| >= 2 && Segments(email)[0] == [] && Segments(email)[1] == [])
    ensures r.Text? ==> NoLowerAscii(r.text)
  {
    var name := LocalPart(email);
    var parts := Split(name, Separators);
    if |parts| >= 2 then
      match JsConcat(CharAt0(parts[0]), CharAt0(parts[1]))
      case Some(t) => Text(Upper(t))
      case None => TypeError
    else Text(Upper(Take(name, 2)))
  }

  // ----- Corrected -----

  /** `getInitials` with `parts[k].charAt(0)`, which is '' for an empty segment. */
  function Initials(email: string): (r: string)
    ensures |r| <= 2
    ensures NoLowerAscii(r)
  {
    var name := LocalPart(email);
    var parts := Split(name, Separators);
    if |parts| >= 2 then Upper(Take(parts[0], 1) + Take(parts[1], 1))
    else Upper(Take(name, 2))
  }

  /** Neither of the first two segments is empty, when there are two: the case the code handles. */
  predicate LeadingSegmentsFilled(email: string) {
    |Segments(email)| >= 2 ==> Segments(email)[0] != [] && Segments(email)[1] != []
  }

  /** `getInitials(user.email || '')`, with the helper as written. */
  function UserInitials(email: Option<string>): (r: Outcome)
    ensures email.None? ==> r == Text([])
    // the header throws exactly when the email's first two of several segments are both empty
    ensures r.TypeError? <==>
      email.Some? && |Segments(email.value)| >= 2 && Segments(email.value)[0] == [] && Segments(email.value)[1] == []
    // where the code handles the email, at most two characters are shown
    ensures email.Some? && LeadingSegmentsFilled(email.value) ==> r.Text? && |r.text| <= 2
  {
    EmptyEmail();
    if email.Some? && LeadingSegmentsFilled(email.value) then
      CorrectionAgrees(email.value);
      InitialsAsWritten(email.GetOr(""))
    else
      InitialsAsWritten(email.GetOr(""))
  }

  /** `getInitials(user.email || '')`, with the corrected helper. */
  function UserInitialsCorrected(email: Option<string>): (r: string)
    ensures |r| <= 2
    ensures email.None? ==> r == []
    // it shows what the header shows wherever the header does not misbehave
    ensures email.Some? && LeadingSegmentsFilled(email.value) ==> UserInitials(email) == Text(r)
  {
    EmptyEmail();
    if email.Some? && LeadingSegmentsFilled(email.value) then
      CorrectionAgrees(email.value);
      Initials(email.GetOr(""))
    else
      Initials(email.GetOr(""))
  }

  /** An empty email gives no initials, before and after the correction. */
  lemma EmptyEmail()
    ensures Initials("") == []
    ensures InitialsAsWritten("") == Text([])
  {
    assert LocalPart("") == [];
    assert Split([], Separators) == [[]];
  }

  /** Only the text before the first '@' matters. */
  lemma OnlyLocalPart(local: string, domain: string)
    requires Free(local, '@')
    ensures LocalPart(local + "@" + domain) == local
    ensures Initials(local + "@" + domain) == Initials(local)
    ensures InitialsAsWritten(local + "@" + domain) == InitialsAsWritten(local)
  {
    SplitPrefix(local, domain, '@', {'@'});
    SplitNoSep(local, {'@'});
  }

  /** For a dotted (or '_'/'-') name the initials are the upper-cased first letters of its first two parts. */
  lemma TwoNames(first: string, sep: char, second: string, domain: string)
    requires sep in Separators
    requires first != [] && second != []
    requires FreeOf(first, Separators) && FreeOf(second, Separators)
    requires Free(first, '@') && Free(second, '@') && sep != '@'
    ensures Initials(first + [sep] + second + "@" + domain) == Upper([first[0], second[0]])
    ensures InitialsAsWritten(first + [sep] + second + "@" + domain) == Text(Upper([first[0], second[0]]))
  {
    var local := first + [sep] + second;
    var email := local + "@" + domain;
    assert LocalPart(email) == local by {
      assert Free(local, '@') by {
        forall i | 0 <= i < |local| ensures local[i] != '@' {
          if i < |first| { assert local[i] == first[i]; }
          else if i > |first| { assert local[i] == second[i - |first| - 1]; }
        }
      }
      assert email == local + ['@'] + domain;
      SplitPrefix(local, domain, '@', {'@'});
    }
    assert Segments(email) == [first, second] by {
      SplitPrefix(first, second, sep, Separators);
      SplitNoSep(second, Separators);
    }
  }

  /** A name without separators gives its first two letters, upper-cased. */
  lemma OneName(name: string, domain: string)
    requires FreeOf(name, Separators) && Free(name, '@')
    ensures Initials(name + "@" + domain) == Upper(Take(name, 2))
    ensures InitialsAsWritten(name + "@" + domain) == Text(Upper(Take(name, 2)))
  {
    OnlyLocalPart(name, domain);
    SplitNoSep(name, Separators);
  }

  /** Whenever the first two segments are non-empty (or there is only one), the correction changes nothing. */
  lemma CorrectionAgrees(email: string)
    requires LeadingSegmentsFilled(email)
    ensures InitialsAsWritten(email) == Text(Initials(email))
  {
  }

  /**
   * A name ending in a separator, such as "john.@x.com": the empty second
   * segment shows up as the upper-cased word "undefined" ("JUNDEFINED"),
   * ten characters where at most two are meant; the corrected helper gives
   * the first letter alone ("J").
   */
  lemma TrailingSeparatorShowsUndefined(first: string, sep: char, domain: string)
    requires sep in Separators
    requires first != [] && FreeOf(first, Separators) && Free(first, '@')
    ensures InitialsAsWritten(first + [sep] + "@" + domain) == Text(Upper([first[0]] + "undefined"))
    ensures |InitialsAsWritten(first + [sep] + "@" + domain).text| == 10
    ensures Initials(first + [sep] + "@" + domain) == [UpperChar(first[0])]
  {
    var local := first + [sep];
    var email := first + [sep] + "@" + domain;
    assert LocalPart(email) == local by {
      assert Free(local, '@') by {
        forall i | 0 <= i < |local| ensures local[i] != '@' {
          if i < |first| { assert local[i] == first[i]; }
        }
      }
      assert email == local + ['@'] + domain;
      SplitPrefix(local, domain, '@', {'@'});
    }
    assert Segments(email) == [first, ""] by {
      assert local == first + [sep] + "";
      SplitPrefix(first, "", sep, Separators);
      SplitNoSep(first, Separators);
    }
  }

  /**
   * A name made of two separators, such as "._@x.com": both leading
   * segments are empty, so `NaN.toUpperCase` throws, where the corrected
   * helper gives no initials.
   */
  lemma SeparatorsOnlyThrows(a: char, b: char, domain: string)
    requires a in Separators && b in Separators
    ensures InitialsAsWritten([a, b] + "@" + domain) == TypeError
    ensures Initials([a, b] + "@" + domain) == []
  {
    SeparatorsOnlySegments(a, b, domain);
    var parts := Split(LocalPart([a, b] + "@" + domain), Separators);
    assert CharAt0(parts[0]) == None && CharAt0(parts[1]) == None;
    assert Take(parts[0], 1) + Take(parts[1], 1) == [];
  }

  /** The name of "._@x.com" is "._", which splits into three empty segments. */
  lemma SeparatorsOnlySegments(a: char, b: char, domain: string)
    requires a in Separators && b in Separators
    ensures LocalPart([a, b] + "@" + domain) == [a, b]
    ensures Split([a, b], Separators) == ["", "", ""]
  {
    var email := [a, b] + "@" + domain;
    assert email == [a, b] + ['@'] + domain;
    SplitPrefix([a, b], domain, '@', {'@'});
    assert [a, b] == "" + [a] + [b];
    SplitPrefix("", [b], a, Separators);
    assert [b] == "" + [b] + "";
    SplitPrefix("", "", b, Separators);
  }
}

=== FILE: middleware.dfy ===
/**
 * The redirect decision of the request middleware (middleware.ts). The user
 * lookup against the auth service is an input: it finds a user, finds none,
 * or fails (throws).
 */
module AuthMiddleware {

  datatype UserLookup = Found(userId: string) | NoUser | LookupFailed

  datatype Decision = PassThrough | Redirect(target: string)

  /** `user` after the try/catch: a failed lookup leaves it null. */
  predicate Authenticated(lookup: UserLookup) {
    lookup.Found?
  }

  predicate StartsWithAny(path: string, prefixes: seq<string>) {
    exists i :: 0 <= i < |prefixes| && prefixes[i] <= path
  }

  const ProtectedPrefixes: seq<string> := ["/dashboard", "/searches", "/alerts", "/settings"]
  const AuthPagePrefixes: seq<string> := ["/login", "/register"]

  /** `middleware`: what happens to a request for `path`. */
  function Route(path: string, lookup: UserLookup): (d: Decision)
    ensures StartsWithAny(path, ProtectedPrefixes) && !Authenticated(lookup) ==> d == Redirect("/login")
    ensures StartsWithAny(path, AuthPagePrefixes) && Authenticated(lookup) ==> d == Redirect("/dashboard")
    ensures (!(StartsWithAny(path, ProtectedPrefixes) && !Authenticated(lookup))
             && !(StartsWithAny(path, AuthPagePrefixes) && Authenticated(lookup))) ==> d == PassThrough
  {
    var user := Authenticated(lookup);
    if StartsWithAny(path, ProtectedPrefixes) && !user then Redirect("/login")
    else if StartsWithAny(path, AuthPagePrefixes) && user then Redirect("/dashboard")
    else PassThrough
  }

  /** A failed lookup is handled exactly like a lookup that finds nobody. */
  lemma FailureIsAnonymous(path: string)
    ensures Route(path, LookupFailed) == Route(path, NoUser)
  {
  }

  /** The only redirects are to the login page and to the dashboard. */
  lemma OnlyTwoTargets(path: string, lookup: UserLookup)
    ensures Route(path, lookup).Redirect? ==>
      Route(path, lookup).target == "/login" || Route(path, lookup).target == "/dashboard"
  {
  }

  /** A signed-in user is never sent to the login page, an anonymous one never to the dashboard. */
  lemma NoWrongWayRedirect(path: string, lookup: UserLookup)
    ensures Authenticated(lookup) ==> Route(path, lookup) != Redirect("/login")
    ensures !Authenticated(lookup) ==> Route(path, lookup) != Redirect("/dashboard")
  {
  }

  /** The two redirects never chain: a redirect's target is let through for the same user. */
  lemma RedirectTargetPasses(path: string, lookup: UserLookup)
    requires Route(path, lookup).Redirect?
    ensures Route(Route(path, lookup).target, lookup) == PassThrough
  {
    var t := Route(path, lookup).target;
    if Authenticated(lookup) {
      assert t == "/dashboard";
      NotPrefixByFirstChars(t, AuthPagePrefixes);
    } else {
      assert t == "/login";
      NotPrefixByFirstChars(t, ProtectedPrefixes);
    }
  }

  /** No listed prefix is a prefix of `t` when they differ in their second character. */
  lemma NotPrefixByFirstChars(t: string, prefixes: seq<string>)
    requires |t| >= 2
    requires forall i :: 0 <= i < |prefixes| ==> |prefixes[i]| >= 2 && prefixes[i][1] != t[1]
    ensures !StartsWithAny(t, prefixes)
  {
  }

  /**
   * `config.matcher`: the paths the middleware runs on. Each protected root
   * with `:path*` matches the root itself or the root followed by further
   * segments; the two auth pages match exactly.
   */
  predicate Matched(path: string) {
    || (exists i :: 0 <= i < |ProtectedPrefixes| && InSection(path, ProtectedPrefixes[i]))
    || path in AuthPagePrefixes
  }

  /** `path` is `root` or lies below it. */
  predicate InSection(path: string, root: string) {
    path == root || root + "/" <= path
  }

  /** What a request for `path` meets: the middleware's decision on matched paths, nothing otherwise. */
  function Serve(path: string, lookup: UserLookup): (d: Decision)
    // paths outside the matcher are never redirected
    ensures !Matched(path) ==> d == PassThrough
    // a redirect only ever sends an anonymous visitor of a protected section to the login page,
    // or a signed-in visitor of an auth page to the dashboard
    ensures d == Redirect("/login") <==>
      !Authenticated(lookup) && exists i :: 0 <= i < |ProtectedPrefixes| && InSection(path, ProtectedPrefixes[i])
    ensures d == Redirect("/dashboard") <==> Authenticated(lookup) && path in AuthPagePrefixes
  {
    if Matched(path) then
      SectionsAreSegments(path);
      Route(path, lookup)
    else
      PassThrough
  }

  /**
   * On the paths the matcher lets through, the prefix tests of the body
   * agree with whole-segment tests: a protected prefix holds exactly when the
   * path is in a protected section, an auth-page prefix exactly when the
   * path is that page.
   */
  lemma SectionsAreSegments(path: string)
    requires Matched(path)
    ensures StartsWithAny(path, ProtectedPrefixes) <==>
      exists i :: 0 <= i < |ProtectedPrefixes| && InSection(path, ProtectedPrefixes[i])
    ensures StartsWithAny(path, AuthPagePrefixes) <==> path in AuthPagePrefixes
  {
    if path in AuthPagePrefixes {
      assert |path| >= 2 && (path[1] == 'l' || path[1] == 'r');
      NotPrefixByFirstChars(path, ProtectedPrefixes);
      assert AuthPagePrefixes[0] == path || AuthPagePrefixes[1] == path;
    } else {
      var i :| 0 <= i < |ProtectedPrefixes| && InSection(path, ProtectedPrefixes[i]);
      var root := ProtectedPrefixes[i];
      assert root <= path by {
        if path != root {
          assert (root + "/")[..|root|] == root;
        }
      }
      assert |path| >= 2 && path[1] == root[1];
      assert path[1] == 'd' || path[1] == 's' || path[1] == 'a';
      NotPrefixByFirstChars(path, AuthPagePrefixes);
    }
  }

  /**
   * The body matches on string prefixes, not segments: `Route` alone treats
   * "/dashboardx" as protected. The matcher never sends that path to the
   * middleware, so the request is served as is.
   */
  lemma PrefixNotSegment()
    ensures Route("/dashboardx", NoUser) == Redirect("/login")
    ensures !Matched("/dashboardx") && Serve("/dashboardx", NoUser) == PassThrough
  {
    var p := "/dashboardx";
    assert ProtectedPrefixes[0] <= p;
    forall i | 0 <= i < |ProtectedPrefixes| ensures !InSection(p, ProtectedPrefixes[i]) {
      var root := ProtectedPrefixes[i];
      if i == 0 {
        assert |root| == 10 && (root + "/")[10] == '/' && p[10] == 'x';
      } else {
        assert root[1] != 'd';
        assert (root + "/")[1] == root[1];
      }
    }
  }
}

=== FILE: phone_input.dfy ===
/**
 * The E.164 split and join of the phone-number input
 * (components/ui/PhoneInput.tsx): a stored number such as "+14155551234"
 * is split into a dial code from the country table and a national number,
 * and the two are joined back with every non-digit dropped.
 */
module PhoneInput {
  import opened Wrappers
  import opened Text

  /** One row of `COUNTRIES` (the flag glyph is presentation and is left out). */
  datatype Country = Country(code: string, name: string, dialCode: string)

  const Countries: seq<Country> := [
    Country("US", "United States", "+1"),
    Country("CA", "Canada", "+1"),
    Country("GB", "United Kingdom", "+44"),
    Country("AU", "Australia", "+61"),
    Country("NZ", "New Zealand", "+64"),
    Country("IE", "Ireland", "+353"),
    Country("DE", "Germany", "+49"),
    Country("FR", "France", "+33"),
    Country("ES", "Spain", "+34"),
    Country("IT", "Italy", "+39"),
    Country("NL", "Netherlands", "+31"),
    Country("BE", "Belgium", "+32"),
    Country("SE", "Sweden", "+46"),
    Country("NO", "Norway", "+47"),
    Country("DK", "Denmark", "+45"),
    Country("FI", "Finland", "+358"),
    Country("PL", "Poland", "+48"),
    Country("IN", "India", "+91"),
    Country("CN", "China", "+86"),
    Country("JP", "Japan", "+81"),
    Country("KR", "South Korea", "+82"),
    Country("SG", "Singapore", "+65"),
    Country("MX", "Mexico", "+52"),
    Country("BR", "Brazil", "+55"),
    Country("AR", "Argentina", "+54")
  ]

  function DialCodes(cs: seq<Country>): (ds: seq<string>)
    ensures |ds| == |cs|
    ensures forall i :: 0 <= i < |cs| ==> ds[i] == cs[i].dialCode
  {
    seq(|cs|, i requires 0 <= i < |cs| => cs[i].dialCode)
  }

  /** The split form of a phone number. */
  datatype Parsed = Parsed(countryCode: string, nationalNumber: string)

  /**
   * The dial code that `parseE164` picks from the table: it sorts the table
   * by descending code length (a stable sort) and takes the first code that
   * prefixes the input, that is, the longest prefixing code, the earliest
   * one among equally long ones.
   */
  function LongestMatch(codes: seq<string>, s: string): (r: Option<string>)
    ensures r.None? <==> (forall i :: 0 <= i < |codes| ==> !(codes[i] <= s))
    ensures r.Some? ==> r.value in codes && r.value <= s
    ensures r.Some? ==> forall i :: 0 <= i < |codes| && codes[i] <= s ==> |codes[i]| <= |r.value|
  {
    if codes == [] then None
    else
      var rest := LongestMatch(codes[1..], s);
      assert forall i :: 1 <= i < |codes| ==> codes[i] == codes[1..][i - 1];
      if codes[0] <= s && (rest.None? || |rest.value| <= |codes[0]|) then Some(codes[0])
      else rest
  }

  /** Characters the regular-expression `.` does not match. */
  predicate IsLineTerminator(c: char) {
    c == '\n' || c == '\r' || c == '\U{2028}' || c == '\U{2029}'
  }

  /** What `(.*)` captures: the text up to the first line terminator. */
  function UpToLineTerminator(t: string): (r: string)
    ensures r <= t
    ensures forall i :: 0 <= i < |r| ==> !IsLineTerminator(r[i])
    ensures |r| < |t| ==> IsLineTerminator(t[|r|])
  {
    if t == [] || IsLineTerminator(t[0]) then [] else [t[0]] + UpToLineTerminator(t[1..])
  }

  /** The number of digits `\d{1,3}` takes greedily: leading digits, at most three. */
  function LeadingDigits(t: string): (k: nat)
    ensures k <= 3 && k <= |t|
    ensures forall i :: 0 <= i < k ==> IsDigit(t[i])
    ensures k < 3 && k < |t| ==> !IsDigit(t[k])
  {
    if |t| >= 1 && IsDigit(t[0]) then
      if |t| >= 2 && IsDigit(t[1]) then
        if |t| >= 3 && IsDigit(t[2]) then 3 else 2
      else 1
    else 0
  }

  /** `c` is one of `codes` and prefixes `s`. */
  predicate Prefixes(codes: seq<string>, s: string) {
    exists i :: 0 <= i < |codes| && codes[i] <= s
  }

  /**
   * `parseE164`, with the dial-code table as a parameter: the body of the
   * source function after `COUNTRIES` is mapped to its dial codes.
   */
  function SplitNumber(codes: seq<string>, s: string): (r: Parsed)
    // no leading '+': the default code and no national number
    ensures s == [] || s[0] != '+' ==> r == Parsed("+1", "")
    // a table code matches: the longest one, and the two parts give back the input
    ensures s != [] && s[0] == '+' && Prefixes(codes, s) ==>
      && r.countryCode in codes
      && r.countryCode <= s
      && (forall i :: 0 <= i < |codes| && codes[i] <= s ==> |codes[i]| <= |r.countryCode|)
      && r.countryCode + r.nationalNumber == s
    // no table code matches, digits follow the '+': '+' and up to three of them
    ensures s != [] && s[0] == '+' && !Prefixes(codes, s) && |s| > 1 && IsDigit(s[1]) ==>
      && 2 <= |r.countryCode| <= 4
      && r.countryCode <= s
      && AllDigits(r.countryCode[1..])
      && (|r.countryCode| < 4 && |r.countryCode| < |s| ==> !IsDigit(s[|r.countryCode|]))
      && r.nationalNumber == UpToLineTerminator(s[|r.countryCode|..])
    // no table code matches and no digit follows: the default code and the rest
    ensures s != [] && s[0] == '+' && !Prefixes(codes, s) && !(|s| > 1 && IsDigit(s[1])) ==>
      r == Parsed("+1", s[1..])
  {
    if s == [] || s[0] != '+' then Parsed("+1", "")
    else
      match LongestMatch(codes, s)
      case Some(c) =>
        assert s == c + s[|c|..];
        Parsed(c, s[|c|..])
      case None => Fallback(s)
  }

  /** The end of `parseE164` when no table code matches: `/^(\+\d{1,3})(.*)/`, else the default code. */
  function Fallback(s: string): (r: Parsed)
    requires s != [] && s[0] == '+'
    ensures |s| > 1 && IsDigit(s[1]) ==>
      && 2 <= |r.countryCode| <= 4
      && r.countryCode <= s
      && AllDigits(r.countryCode[1..])
      && (|r.countryCode| < 4 && |r.countryCode| < |s| ==> !IsDigit(s[|r.countryCode|]))
      && r.nationalNumber == UpToLineTerminator(s[|r.countryCode|..])
    ensures !(|s| > 1 && IsDigit(s[1])) ==> r == Parsed("+1", s[1..])
  {
    var k := LeadingDigits(s[1..]);
    if k >= 1 then
      var code := s[..1 + k];
      assert forall i :: 0 <= i < k ==> code[1..][i] == s[1..][i];
      assert k < 3 && k < |s| - 1 ==> s[|code|] == s[1..][k];
      Parsed(code, UpToLineTerminator(s[1 + k..]))
    else
      assert |s| > 1 ==> s[1] == s[1..][0];
      Parsed("+1", s[1..])
  }

  /**
   * `parseE164` over the country table of the component: the country code
   * always starts with '+', and unless it is the default it opens the input.
   */
  function ParseE164(s: string): (r: Parsed)
    ensures |r.countryCode| >= 1 && r.countryCode[0] == '+'
    ensures r.countryCode != "+1" ==> r.countryCode <= s
  {
    CountryCodesPrefixFree();
    SplitNumber(DialCodes(Countries), s)
  }

  /** `toE164`. */
  function ToE164(countryCode: string, nationalNumber: string): (r: string)
    ensures KeepDigits(nationalNumber) == [] ==> r == []
    ensures KeepDigits(nationalNumber) != [] ==> r == countryCode + KeepDigits(nationalNumber)
  {
    if nationalNumber == [] then []
    else
      var digitsOnly := KeepDigits(nationalNumber);
      if digitsOnly == [] then [] else countryCode + digitsOnly
  }

  lemma {:induction false} NoTerminatorInDigits(t: string)
    requires AllDigits(t)
    ensures UpToLineTerminator(t) == t
  {
    if t != [] {
      NoTerminatorInDigits(t[1..]);
      assert [t[0]] + t[1..] == t;
    }
  }

  /** The national part of a '+'-and-digits input is a suffix of it, so digits too. */
  lemma {:induction false} SplitOfDigitsIsSuffix(codes: seq<string>, s: string)
    requires PlusCodes(codes)
    requires |s| >= 2 && s[0] == '+' && AllDigits(s[1..])
    ensures var r := SplitNumber(codes, s);
      1 <= |r.countryCode| <= |s| && r.countryCode + r.nationalNumber == s
  {
    var r := SplitNumber(codes, s);
    assert IsDigit(s[1]) by { assert s[1] == s[1..][0]; }
    if Prefixes(codes, s) {
      var i :| 0 <= i < |codes| && codes[i] == r.countryCode;
    } else {
      var k := |r.countryCode|;
      assert s[k..] == s[1..][k - 1..];
      NoTerminatorInDigits(s[k..]);
      assert s == s[..k] + s[k..];
    }
  }

  /** Split then join: a '+' and digits come back unchanged when a national part remains. */
  lemma SplitThenJoin(codes: seq<string>, s: string)
    requires PlusCodes(codes)
    requires |s| >= 2 && s[0] == '+' && AllDigits(s[1..])
    requires SplitNumber(codes, s).nationalNumber != []
    ensures ToE164(SplitNumber(codes, s).countryCode, SplitNumber(codes, s).nationalNumber) == s
  {
    var r := SplitNumber(codes, s);
    SplitOfDigitsIsSuffix(codes, s);
    var k := |r.countryCode|;
    assert r.nationalNumber == s[k..];
    assert AllDigits(r.nationalNumber) by {
      forall i | 0 <= i < |r.nationalNumber|
        ensures IsDigit(r.nationalNumber[i])
      {
        assert r.nationalNumber[i] == s[1..][k - 1 + i];
      }
    }
  }

  /** No code of the list is a proper prefix of another. */
  predicate PrefixFree(codes: seq<string>) {
    forall i, j :: 0 <= i < |codes| && 0 <= j < |codes| && codes[i] <= codes[j] ==> codes[i] == codes[j]
  }

  /** Every code is a '+' followed by something. */
  predicate PlusCodes(codes: seq<string>) {
    forall i :: 0 <= i < |codes| ==> |codes[i]| >= 1 && codes[i][0] == '+'
  }

  /** Join then split: a listed code and a national number with some digit come back, digits only. */
  lemma JoinThenSplit(codes: seq<string>, code: string, national: string)
    requires PrefixFree(codes) && PlusCodes(codes)
    requires code in codes
    requires KeepDigits(national) != []
    ensures SplitNumber(codes, ToE164(code, national)) == Parsed(code, KeepDigits(national))
  {
    var s := ToE164(code, national);
    var r := SplitNumber(codes, s);
    var i :| 0 <= i < |codes| && codes[i] == code;
    assert code <= s;
    assert s[0] == '+';
    assert Prefixes(codes, s);
    assert r.countryCode <= s;
    assert |code| <= |r.countryCode|;
    assert code <= r.countryCode;
    assert s[|code|..] == KeepDigits(national);
  }

  /**
   * The shapes of the table's codes: "+1", a three-character code not
   * starting "+1" and other than "+35", or a four-character code starting "+35".
   */
  predicate CodeShape(c: string) {
    || c == "+1"
    || (|c| == 3 && c[0] == '+' && c[1] != '1' && !(c[1] == '3' && c[2] == '5'))
    || (|c| == 4 && c[0] == '+' && c[1] == '3' && c[2] == '5')
  }

  /** Codes of those shapes never extend one another. */
  lemma ShapedCodesPrefixFree(codes: seq<string>)
    requires forall i :: 0 <= i < |codes| ==> CodeShape(codes[i])
    ensures PrefixFree(codes) && PlusCodes(codes)
  {
    forall i, j | 0 <= i < |codes| && 0 <= j < |codes| && codes[i] <= codes[j]
      ensures codes[i] == codes[j]
    {
      var a, b := codes[i], codes[j];
      assert CodeShape(a) && CodeShape(b);
      assert a[1] == b[1];
      assert |a| >= 3 ==> a[2] == b[2];
    }
  }

  /** Every code from position `k` of the country table on has one of those shapes. */
  predicate ShapedFrom(cs: seq<Country>, k: nat)
    decreases |cs| - k
  {
    k >= |cs| || (CodeShape(cs[k].dialCode) && ShapedFrom(cs, k + 1))
  }

  lemma {:induction false} ShapedFromAll(cs: seq<Country>, k: nat)
    requires ShapedFrom(cs, k)
    ensures forall i :: k <= i < |cs| ==> CodeShape(cs[i].dialCode)
    decreases |cs| - k
  {
    if k < |cs| {
      ShapedFromAll(cs, k + 1);
    }
  }

  /** The rows from 17 on have the shapes above; the table is checked one row at a time, from the end. */
  lemma ShapedFromSeventeen()
    ensures ShapedFrom(Countries, 17)
  {
    var cs := Countries;
    assert ShapedFrom(cs, 25);
    assert ShapedFrom(cs, 24);
    assert ShapedFrom(cs, 23);
    assert ShapedFrom(cs, 22);
    assert ShapedFrom(cs, 21);
    assert ShapedFrom(cs, 20);
    assert ShapedFrom(cs, 19);
    assert ShapedFrom(cs, 18);
    assert ShapedFrom(cs, 17);
  }

  lemma ShapedFromNine()
    ensures ShapedFrom(Countries, 9)
  {
    var cs := Countries;
    ShapedFromSeventeen();
    assert ShapedFrom(cs, 16);
    assert ShapedFrom(cs, 15);
    assert ShapedFrom(cs, 14);
    assert ShapedFrom(cs, 13);
    assert ShapedFrom(cs, 12);
    assert ShapedFrom(cs, 11);
    assert ShapedFrom(cs, 10);
    assert ShapedFrom(cs, 9);
  }

  /** Every dial code of `COUNTRIES` has one of the shapes above. */
  lemma CountryCodeShapes()
    ensures forall i :: 0 <= i < |Countries| ==> CodeShape(Countries[i].dialCode)
  {
    var cs := Countries;
    ShapedFromNine();
    assert ShapedFrom(cs, 8);
    assert ShapedFrom(cs, 7);
    assert ShapedFrom(cs, 6);
    assert ShapedFrom(cs, 5);
    assert ShapedFrom(cs, 4);
    assert ShapedFrom(cs, 3);
    assert ShapedFrom(cs, 2);
    assert ShapedFrom(cs, 1);
    assert ShapedFrom(cs, 0);
    ShapedFromAll(cs, 0);
  }

  /** The dial codes of `COUNTRIES` form a prefix-free list of '+' codes. */
  lemma CountryCodesPrefixFree()
    ensures PrefixFree(DialCodes(Countries)) && PlusCodes(DialCodes(Countries))
  {
    CountryCodeShapes();
    ShapedTablePrefixFree(Countries);
  }

  lemma ShapedTablePrefixFree(cs: seq<Country>)
    requires forall i :: 0 <= i < |cs| ==> CodeShape(cs[i].dialCode)
    ensures PrefixFree(DialCodes(cs)) && PlusCodes(DialCodes(cs))
  {
    ShapedCodesPrefixFree(DialCodes(cs));
  }

  /** Split then join for the component's own table. */
  lemma ParseThenJoin(s: string)
    requires |s| >= 2 && s[0] == '+' && AllDigits(s[1..])
    requires ParseE164(s).nationalNumber != []
    ensures ToE164(ParseE164(s).countryCode, ParseE164(s).nationalNumber) == s
  {
    CountryCodesPrefixFree();
    SplitThenJoin(DialCodes(Countries), s);
  }

  /** Join then split for the component's own table: choosing a country and typing a number round-trips. */
  lemma JoinThenParse(country: Country, national: string)
    requires country in Countries
    requires KeepDigits(national) != []
    ensures ParseE164(ToE164(country.dialCode, national)) == Parsed(country.dialCode, KeepDigits(national))
  {
    CountryCodesPrefixFree();
    var i :| 0 <= i < |Countries| && Countries[i] == country;
    JoinThenSplit(DialCodes(Countries), country.dialCode, national);
  }
}

=== FILE: search_validation.dfy ===
/**
 * The rules of the search form (lib/validations/search.ts), written as a
 * validator that lists every rule a form breaks, in the order the schema
 * declares its fields; a form is accepted when the list is empty.
 */
module SearchValidation {
  import opened Wrappers
  import opened Text
  import GradeRange

  /**
   * The series field: absent (`undefined`), `null`, or a number. The schema
   * tells the first two apart: only an absent series gets the form's own
   * message.
   */
  datatype SeriesField = Absent | Null | Given(id: real)

  /** The form's fields; for the optional ones `None` is a field that is absent or null. */
  datatype SearchForm = SearchForm(
    seriesId: SeriesField,
    issueNumber: string,
    maxPrice: Option<real>,
    gradeMin: Option<real>,
    gradeMax: Option<real>,
    pageQuality: Option<string>,
    gradingAuthority: Option<string>,
    platforms: seq<string>)

  /** The rules of the schema that a form can break. */
  datatype Problem =
    | SeriesMissing
    | SeriesNotNumber
    | IssueNumberEmpty
    | IssueNumberFormat
    | GradeMinOutOfRange
    | GradeMaxOutOfRange
    | NoPlatform

  /**
   * The message shown for a problem; a null series and the grade bounds use
   * the schema library's default text.
   */
  function Message(p: Problem): Option<string> {
    match p
    case SeriesMissing => Some("Please select a comic series")
    case IssueNumberEmpty => Some("Issue number is required")
    case IssueNumberFormat => Some("Enter number only (e.g., 1, 129) or \"nn\" for no number")
    case NoPlatform => Some("Select at least one platform")
    case _ => None
  }

  /** `/^(\d+|nn)$/`: one or more ASCII digits, or exactly "nn". */
  predicate IssuePattern(s: string) {
    (|s| >= 1 && AllDigits(s)) || s == "nn"
  }

  /** `.min(0.5).max(10)` on a present grade; an absent or null grade passes. */
  predicate GradeInRange(g: Option<real>) {
    g.None? || 0.5 <= g.value <= 10.0
  }

  /** The problem `p` when the rule fails, nothing when it holds. */
  function Check(ok: bool, p: Problem): (r: seq<Problem>)
    ensures |r| <= 1
    ensures forall q :: q in r <==> !ok && q == p
  {
    if ok then [] else [p]
  }

  /** Every problem of the form, in field order; the two issue-number checks both run. */
  function Validate(f: SearchForm): (ps: seq<Problem>)
    ensures SeriesMissing in ps <==> f.seriesId.Absent?
    ensures SeriesNotNumber in ps <==> f.seriesId.Null?
    ensures IssueNumberEmpty in ps <==> f.issueNumber == []
    ensures IssueNumberFormat in ps <==> !IssuePattern(f.issueNumber)
    ensures GradeMinOutOfRange in ps <==> !GradeInRange(f.gradeMin)
    ensures GradeMaxOutOfRange in ps <==> !GradeInRange(f.gradeMax)
    ensures NoPlatform in ps <==> f.platforms == []
    ensures |ps| <= 6
  {
    var series := if f.seriesId.Null? then [SeriesNotNumber] else Check(!f.seriesId.Absent?, SeriesMissing);
    var empty := Check(|f.issueNumber| >= 1, IssueNumberEmpty);
    var format := Check(IssuePattern(f.issueNumber), IssueNumberFormat);
    var low := Check(GradeInRange(f.gradeMin), GradeMinOutOfRange);
    var high := Check(GradeInRange(f.gradeMax), GradeMaxOutOfRange);
    var platforms := Check(|f.platforms| >= 1, NoPlatform);
    var ps := series + empty + format + low + high + platforms;
    assert forall q :: q in ps <==> q in series || q in empty || q in format || q in low || q in high || q in platforms;
    ps
  }

  /** `searchFormSchema.safeParse(f).success`. */
  predicate IsValid(f: SearchForm) {
    Validate(f) == []
  }

  /** A form is accepted exactly when each field rule holds; no rule relates two fields. */
  lemma IsValidFieldByField(f: SearchForm)
    ensures IsValid(f) <==>
      && f.seriesId.Given?
      && IssuePattern(f.issueNumber)
      && GradeInRange(f.gradeMin)
      && GradeInRange(f.gradeMax)
      && |f.platforms| >= 1
  {
    if !IsValid(f) {
      var p := Validate(f)[0];
      assert p in Validate(f);
    }
  }

  /** The empty issue number breaks both issue-number rules. */
  lemma EmptyIssueNumberTwoProblems(f: SearchForm)
    requires f.issueNumber == []
    ensures IssueNumberEmpty in Validate(f) && IssueNumberFormat in Validate(f)
  {
  }

  /** An inverted grade range and a negative price are both accepted. */
  lemma NoCrossFieldCheck()
    ensures IsValid(SearchForm(Given(1.0), "129", Some(-5.0), Some(9.8), Some(2.0), None, None, ["ebay"]))
  {
  }

  /** Every concrete grade of the selector's scale satisfies the grade rule. */
  lemma ScaleGradesPass(i: nat)
    requires i < |GradeRange.GradeOptions|
    ensures GradeInRange(GradeRange.GradeOptions[i].value)
  {
    GradeRange.GradeScaleShape();
  }
}

=== FILE: searches_cache.dfy ===
/**
 * The client cache of the user's saved searches (hooks/useSearches.ts): the
 * optimistic delete with snapshot rollback, which mutations mark the cache
 * stale, and the list the hook exposes. The cache holds the last
 * `SearchListResponse` under the key 'searches', or nothing.
 */
module SearchesCache {
  import opened Wrappers

  /**
   * A reduced `GrailSearch` (types/search.types.ts). The cache only ever
   * looks at `id`; the nested series is kept as its id, and page quality,
   * grading authority, the alert count and the timestamps are left out.
   */
  datatype GrailSearch = GrailSearch(
    id: string,
    userId: string,
    seriesId: int,
    issueNumber: string,
    maxPrice: Option<real>,
    gradeMin: Option<real>,
    gradeMax: Option<real>,
    platforms: seq<string>,
    isActive: bool,
    notificationsEnabled: bool)

  /** A cached list response: the searches, plus whatever other fields the server sent. */
  datatype ListResponse = ListResponse(searches: seq<GrailSearch>, otherFields: map<string, string>)

  type Cache = Option<ListResponse>

  /** `old.searches.filter((s) => s.id !== searchId)`. */
  function RemoveById(ss: seq<GrailSearch>, searchId: string): (r: seq<GrailSearch>)
    ensures |r| <= |ss|
    ensures forall i :: 0 <= i < |r| ==> r[i].id != searchId && r[i] in ss
    ensures forall i :: 0 <= i < |ss| && ss[i].id != searchId ==> ss[i] in r
  {
    if ss == [] then []
    else if ss[0].id != searchId then [ss[0]] + RemoveById(ss[1..], searchId)
    else RemoveById(ss[1..], searchId)
  }

  /** Removal works piece by piece: the kept searches of a concatenation are the kept searches of each part, in order. */
  lemma {:induction false} RemoveByIdAppend(a: seq<GrailSearch>, b: seq<GrailSearch>, searchId: string)
    ensures RemoveById(a + b, searchId) == RemoveById(a, searchId) + RemoveById(b, searchId)
  {
    if a == [] {
      assert a + b == b;
    } else {
      assert (a + b)[1..] == a[1..] + b;
      RemoveByIdAppend(a[1..], b, searchId);
    }
  }

  /** A list without the id is left as it is. */
  lemma {:induction false} RemoveByIdAbsent(ss: seq<GrailSearch>, searchId: string)
    requires forall i :: 0 <= i < |ss| ==> ss[i].id != searchId
    ensures RemoveById(ss, searchId) == ss
  {
    if ss != [] {
      RemoveByIdAbsent(ss[1..], searchId);
      assert [ss[0]] + ss[1..] == ss;
    }
  }

  /** Removing twice is removing once. */
  lemma RemoveByIdIdempotent(ss: seq<GrailSearch>, searchId: string)
    ensures RemoveById(RemoveById(ss, searchId), searchId) == RemoveById(ss, searchId)
  {
    RemoveByIdAbsent(RemoveById(ss, searchId), searchId);
  }

  /** What `onMutate` returns to later callbacks: the snapshot taken before the removal. */
  datatype DeleteContext = DeleteContext(previousSearches: Cache)

  datatype Mutated = Mutated(cache: Cache, context: DeleteContext)

  /** `onMutate`: snapshot the cache, then remove the search from it at once. */
  function OnMutate(cache: Cache, searchId: string): (m: Mutated)
    ensures m.context.previousSearches == cache
    ensures cache.None? ==> m.cache == Some(ListResponse([], map[]))
    ensures cache.Some? ==>
      && m.cache.Some?
      && m.cache.value.searches == RemoveById(cache.value.searches, searchId)
      && m.cache.value.otherFields == cache.value.otherFields
  {
    var previousSearches := cache;
    var updated :=
      if cache.None? then ListResponse([], map[])
      else cache.value.(searches := RemoveById(cache.value.searches, searchId));
    Mutated(Some(updated), DeleteContext(previousSearches))
  }

  /** `onError`: put the snapshot back when there is one; otherwise leave the cache alone. */
  function OnError(cache: Cache, context: Option<DeleteContext>): (c: Cache)
    ensures context.Some? && context.value.previousSearches.Some? ==> c == context.value.previousSearches
    ensures !(context.Some? && context.value.previousSearches.Some?) ==> c == cache
  {
    if context.Some? && context.value.previousSearches.Some? then context.value.previousSearches else cache
  }

  datatype Outcome = Succeeded | Failed

  datatype Settled = Settled(cache: Cache, invalidated: bool)

  /**
   * The whole delete: `onMutate`, the request with the given outcome,
   * `onError` on failure, then `onSettled`, which marks the cache stale.
   */
  function DeleteSearch(cache: Cache, searchId: string, outcome: Outcome): (s: Settled)
    ensures s.invalidated
  {
    var m := OnMutate(cache, searchId);
    var afterError := if outcome == Failed then OnError(m.cache, Some(m.context)) else m.cache;
    Settled(afterError, true)
  }

  /** A failed delete gives back the cached list exactly as it was. */
  lemma FailedDeleteRollsBack(cache: Cache, searchId: string)
    requires cache.Some?
    ensures DeleteSearch(cache, searchId, Failed).cache == cache
  {
  }

  /** A failed delete with nothing cached leaves the empty placeholder list, not an empty cache. */
  lemma FailedDeleteWithoutData(searchId: string)
    ensures DeleteSearch(None, searchId, Failed).cache == Some(ListResponse([], map[]))
  {
  }

  /**
   * A successful delete removes every search with the id and nothing else:
   * the others stay, in order, nothing new appears, and the other fields are
   * as they were.
   */
  lemma SucceededDeleteRemoves(cache: Cache, searchId: string)
    requires cache.Some?
    ensures var c := DeleteSearch(cache, searchId, Succeeded).cache;
      && c.Some?
      && c.value.otherFields == cache.value.otherFields
      && (forall i :: 0 <= i < |c.value.searches| ==> c.value.searches[i].id != searchId)
      && (forall s :: s in cache.value.searches && s.id != searchId ==> s in c.value.searches)
      // nothing new appears: the list is the cached one filtered by id
      && c.value.searches == RemoveById(cache.value.searches, searchId)
      && (forall s :: s in c.value.searches ==> s in cache.value.searches)
      // order is kept: cut the list anywhere, and what is kept of the front comes first
      && (forall k :: 0 <= k <= |cache.value.searches| ==>
            c.value.searches == RemoveById(cache.value.searches[..k], searchId) + RemoveById(cache.value.searches[k..], searchId))
  {
    var ss := cache.value.searches;
    forall k | 0 <= k <= |ss|
      ensures RemoveById(ss, searchId) == RemoveById(ss[..k], searchId) + RemoveById(ss[k..], searchId)
    {
      assert ss == ss[..k] + ss[k..];
      RemoveByIdAppend(ss[..k], ss[k..], searchId);
    }
  }

  datatype Mutation = CreateSearch | UpdateSearch | DeleteSearchMutation | UpdateSearchStatus

  /** Whether the mutation marks the 'searches' key stale once it has settled with `outcome`. */
  function Invalidates(m: Mutation, outcome: Outcome): (b: bool)
    ensures outcome == Succeeded ==> b
    ensures m == DeleteSearchMutation ==> b
    ensures outcome == Failed && m != DeleteSearchMutation ==> !b
  {
    match m
    case DeleteSearchMutation => true
    case _ => outcome == Succeeded
  }

  /** `data?.searches || []`: the list the hook hands to the page. */
  function Exposed(cache: Cache): (ss: seq<GrailSearch>)
    ensures cache.None? ==> ss == []
    ensures cache.Some? ==> ss == cache.value.searches
  {
    if cache.Some? then cache.value.searches else []
  }

  /** The exposed list never shows the deleted search while the delete is in flight. */
  lemma InFlightHidesDeleted(cache: Cache, searchId: string)
    ensures forall i :: 0 <= i < |Exposed(OnMutate(cache, searchId).cache)| ==>
      Exposed(OnMutate(cache, searchId).cache)[i].id != searchId
  {
  }
}

=== FILE: sentry_sanitiser.dfy ===
/**
 * The `beforeSend` hook of the server-side error reporter
 * (sentry.server.config.ts): before an event leaves the process, listed
 * request headers and listed query parameters are replaced by "[FILTERED]".
 * The request URL is taken already parsed into its query pairs; parsing and
 * re-serialising it is outside the model.
 */
module SentrySanitiser {
  import opened Wrappers

  const Filtered := "[FILTERED]"

  /** The header names whose values are redacted, in the order they are visited. */
  const SensitiveHeaders: seq<string> := ["authorization", "cookie", "x-api-key"]

  /** The query parameters whose values are redacted, in the order they are visited. */
  const SensitiveParams: seq<string> := ["token", "key", "password", "secret"]

  type Headers = map<string, string>

  /** A parsed request URL: everything but the query, and the query's name/value pairs in order. */
  datatype Url = Url(rest: string, query: seq<(string, string)>)

  datatype Request = Request(headers: Option<Headers>, url: Option<Url>, otherFields: map<string, string>)

  datatype Event = Event(request: Option<Request>, otherFields: map<string, string>)

  // ----- Headers -----

  /** `names.forEach(h => { if (headers[h]) headers[h] = '[FILTERED]' })`. */
  function RedactHeaders(h: Headers, names: seq<string>): (r: Headers)
    ensures r.Keys == h.Keys
    ensures forall k :: k in h && k in names && h[k] != [] ==> r[k] == Filtered
    ensures forall k :: k in h && (k !in names || h[k] == []) ==> r[k] == h[k]
    decreases |names|
  {
    if names == [] then h
    else
      var next := if names[0] in h && h[names[0]] != [] then h[names[0] := Filtered] else h;
      RedactHeaders(next, names[1..])
  }

  // ----- Query parameters -----

  /** `searchParams.getAll(name)`. */
  function ValuesOf(ps: seq<(string, string)>, name: string): (r: seq<string>)
    ensures |r| <= |ps|
  {
    if ps == [] then []
    else if ps[0].0 == name then [ps[0].1] + ValuesOf(ps[1..], name)
    else ValuesOf(ps[1..], name)
  }

  /** The pairs whose names are not in `names`, in order. */
  function Without(ps: seq<(string, string)>, names: set<string>): (r: seq<(string, string)>)
    ensures forall i :: 0 <= i < |r| ==> r[i].0 !in names
  {
    if ps == [] then []
    else if ps[0].0 in names then Without(ps[1..], names)
    else [ps[0]] + Without(ps[1..], names)
  }

  /** The pairs not named `name`. */
  function RemoveAll(ps: seq<(string, string)>, name: string): (r: seq<(string, string)>)
    ensures ValuesOf(r, name) == []
    ensures forall m :: m != name ==> ValuesOf(r, m) == ValuesOf(ps, m)
  {
    if ps == [] then []
    else if ps[0].0 == name then RemoveAll(ps[1..], name)
    else [ps[0]] + RemoveAll(ps[1..], name)
  }

  /**
   * `searchParams.set(name, v)` (section 6.2 of the WHATWG URL Standard): the
   * first pair named `name` takes the value `v` and the later ones are removed;
   * with no such pair, one is appended.
   */
  function SetParam(ps: seq<(string, string)>, name: string, v: string): (r: seq<(string, string)>)
    ensures ValuesOf(r, name) == [v]
    ensures forall m :: m != name ==> ValuesOf(r, m) == ValuesOf(ps, m)
  {
    if ps == [] then [(name, v)]
    else if ps[0].0 == name then [(name, v)] + RemoveAll(ps[1..], name)
    else [ps[0]] + SetParam(ps[1..], name, v)
  }

  /** `names.forEach(p => { if (params.has(p)) params.set(p, '[FILTERED]') })`. */
  function RedactParams(ps: seq<(string, string)>, names: seq<string>): (r: seq<(string, string)>)
    ensures forall n :: n in names ==> ValuesOf(r, n) == if ValuesOf(ps, n) != [] then [Filtered] else []
    ensures forall m :: m !in names ==> ValuesOf(r, m) == ValuesOf(ps, m)
    decreases |names|
  {
    if names == [] then ps
    else
      var next := if ValuesOf(ps, names[0]) != [] then SetParam(ps, names[0], Filtered) else ps;
      RedactParams(next, names[1..])
  }

  /** Redaction leaves the pairs with other names where they were, in order. */
  lemma {:induction false} RemoveAllKeepsOthers(ps: seq<(string, string)>, name: string, names: set<string>)
    requires name in names
    ensures Without(RemoveAll(ps, name), names) == Without(ps, names)
  {
    if ps != [] {
      RemoveAllKeepsOthers(ps[1..], name, names);
    }
  }

  lemma {:induction false} SetParamKeepsOthers(ps: seq<(string, string)>, name: string, v: string, names: set<string>)
    requires name in names
    requires ValuesOf(ps, name) != []
    ensures Without(SetParam(ps, name, v), names) == Without(ps, names)
  {
    if ps[0].0 == name {
      RemoveAllKeepsOthers(ps[1..], name, names);
    } else {
      SetParamKeepsOthers(ps[1..], name, v, names);
    }
  }

  lemma {:induction false} RedactParamsKeepsOthers(ps: seq<(string, string)>, names: seq<string>, all: set<string>)
    requires forall n :: n in names ==> n in all
    ensures Without(RedactParams(ps, names), all) == Without(ps, all)
    decreases |names|
  {
    if names != [] {
      if ValuesOf(ps, names[0]) != [] {
        SetParamKeepsOthers(ps, names[0], Filtered, all);
      }
      var next := if ValuesOf(ps, names[0]) != [] then SetParam(ps, names[0], Filtered) else ps;
      RedactParamsKeepsOthers(next, names[1..], all);
    }
  }

  /** A parameter that already holds only `v` is left as it is by `set(name, v)`. */
  lemma {:induction false} SetParamFixed(ps: seq<(string, string)>, name: string, v: string)
    requires ValuesOf(ps, name) == [v]
    ensures SetParam(ps, name, v) == ps
  {
    if ps[0].0 == name {
      assert ValuesOf(ps, name) == [ps[0].1] + ValuesOf(ps[1..], name);
      assert ps[0].1 == ValuesOf(ps, name)[0] == v;
      assert |ValuesOf(ps[1..], name)| == 0;
      RemoveAllAbsent(ps[1..], name);
      assert ps[0] == (name, v);
      assert ps == [(name, v)] + ps[1..];
    } else {
      SetParamFixed(ps[1..], name, v);
    }
  }

  lemma {:induction false} RemoveAllAbsent(ps: seq<(string, string)>, name: string)
    requires ValuesOf(ps, name) == []
    ensures RemoveAll(ps, name) == ps
  {
    if ps != [] {
      RemoveAllAbsent(ps[1..], name);
    }
  }

  /** Redacting pairs that are already redacted or absent changes nothing. */
  lemma {:induction false} RedactParamsFixed(ps: seq<(string, string)>, names: seq<string>)
    requires forall n :: n in names ==> ValuesOf(ps, n) == [] || ValuesOf(ps, n) == [Filtered]
    ensures RedactParams(ps, names) == ps
    decreases |names|
  {
    if names != [] {
      if ValuesOf(ps, names[0]) != [] {
        SetParamFixed(ps, names[0], Filtered);
      }
      RedactParamsFixed(ps, names[1..]);
    }
  }

  // ----- The hook -----

  function RedactRequest(req: Request): (r: Request)
    ensures r.otherFields == req.otherFields
    ensures r.headers.Some? <==> req.headers.Some?
    ensures r.url.Some? <==> req.url.Some?
    ensures req.url.Some? ==> r.url.value.rest == req.url.value.rest
  {
    var headers := if req.headers.Some? then Some(RedactHeaders(req.headers.value, SensitiveHeaders)) else None;
    var url := if req.url.Some? then Some(req.url.value.(query := RedactParams(req.url.value.query, SensitiveParams))) else None;
    req.(headers := headers, url := url)
  }

  /** `beforeSend`: the event is always returned, with its request redacted. */
  function BeforeSend(e: Event): (r: Event)
    ensures r.otherFields == e.otherFields
    ensures e.request.None? ==> r == e
    ensures r.request.Some? <==> e.request.Some?
  {
    if e.request.Some? then e.(request := Some(RedactRequest(e.request.value))) else e
  }

  /** Every listed header with a non-empty value is redacted; every other header keeps its value. */
  lemma HeadersRedacted(e: Event)
    requires e.request.Some? && e.request.value.headers.Some?
    ensures var h := e.request.value.headers.value;
      var r := BeforeSend(e).request.value.headers.value;
      r.Keys == h.Keys &&
      (forall k :: k in h ==> r[k] == if k in SensitiveHeaders && h[k] != [] then Filtered else h[k])
  {
  }

  /** Every listed parameter that was present ends with the single value "[FILTERED]"; the rest of the query is untouched. */
  lemma ParamsRedacted(e: Event)
    requires e.request.Some? && e.request.value.url.Some?
    ensures var q := e.request.value.url.value.query;
      var r := BeforeSend(e).request.value.url.value.query;
      (forall n :: n in SensitiveParams ==> ValuesOf(r, n) == if ValuesOf(q, n) != [] then [Filtered] else []) &&
      (forall m :: m !in SensitiveParams ==> ValuesOf(r, m) == ValuesOf(q, m)) &&
      Without(r, set n | n in SensitiveParams) == Without(q, set n | n in SensitiveParams)
  {
    var q := e.request.value.url.value.query;
    RedactParamsKeepsOthers(q, SensitiveParams, set n | n in SensitiveParams);
  }

  /** Redacting headers that are already redacted or empty changes nothing. */
  lemma {:induction false} RedactHeadersFixed(h: Headers, names: seq<string>)
    requires forall k :: k in h && k in names && h[k] != [] ==> h[k] == Filtered
    ensures RedactHeaders(h, names) == h
    decreases |names|
  {
    if names != [] {
      if names[0] in h && h[names[0]] != [] {
        assert h[names[0] := Filtered] == h;
      }
      RedactHeadersFixed(h, names[1..]);
    }
  }

  lemma RedactRequestIdempotent(req: Request)
    ensures RedactRequest(RedactRequest(req)) == RedactRequest(req)
  {
    var once := RedactRequest(req);
    if once.headers.Some? {
      RedactHeadersFixed(once.headers.value, SensitiveHeaders);
    }
    if once.url.Some? {
      RedactParamsFixed(once.url.value.query, SensitiveParams);
      assert once.url.value.(query := once.url.value.query) == once.url.value;
    }
  }

  /** Sanitising a sanitised event changes nothing. */
  lemma BeforeSendIdempotent(e: Event)
    ensures BeforeSend(BeforeSend(e)) == BeforeSend(e)
  {
    if e.request.Some? {
      RedactRequestIdempotent(e.request.value);
    }
  }
}

=== FILE: series_autocomplete.dfy ===
/**
 * The series picker of the search form (components/search/SeriesAutocomplete.tsx)
 * as a state machine: typing, the gate in front of the (debounced) series
 * search, the search's outcome, keyboard selection and choosing a series.
 * Timers, the network request and the DOM are outside the model; their
 * outcomes arrive as events.
 */
module SeriesAutocomplete {
  import opened Wrappers
  import opened Text

  /** `ComicSeries` (types/search.types.ts); volumes are whole numbers. */
  datatype ComicSeries = ComicSeries(id: int, title: string, volume: int, yearRange: string,
                                     seriesType: string, publisher: string)

  datatype State = State(
    query: string,
    results: seq<ComicSeries>,
    isOpen: bool,
    selectedIndex: int,
    isLoading: bool,
    value: Option<ComicSeries>)

  /** The state on mount: the input starts with the chosen series' title, if any. */
  function Initial(value: Option<ComicSeries>): (r: State)
    ensures r.results == [] && !r.isOpen && r.value == value
    ensures r.selectedIndex == 0 && !r.isLoading
    ensures value.None? ==> r.query == []
    ensures value.Some? ==> r.query == value.value.title
  {
    State(if value.Some? then value.value.title else "", [], false, 0, false, value)
  }

  /** `${type ? ` ${type}` : ''}`: a space and the type, or nothing for an empty type. */
  function TypeSuffix(s: ComicSeries): string {
    if s.seriesType != [] then " " + s.seriesType else ""
  }

  /** The text put in the input once a series is chosen. */
  function SelectedLabel(s: ComicSeries): (text: string)
    // it starts with the title and ends with the type, if there is one
    ensures s.title <= text
    ensures |s.seriesType| < |text| && text[|text| - |s.seriesType|..] == s.seriesType
  {
    s.title + (" (Vol. " + IntToString(s.volume) + ", " + s.yearRange + ")" + TypeSuffix(s))
  }

  /** `getDisplayName`: the text of a row of the dropdown. */
  function DisplayName(s: ComicSeries): (row: string)
    // it starts with the title and ends with " - " and the publisher
    ensures s.title <= row
    ensures |s.publisher| + 3 <= |row| && row[|row| - |s.publisher| - 3..] == " - " + s.publisher
  {
    s.title + (TypeSuffix(s) + " (Vol. " + IntToString(s.volume) + ", " + s.yearRange + ") - " + s.publisher)
  }

  /** For a series without a type the row text is the chosen-series text followed by the publisher. */
  lemma DisplayNameUntyped(s: ComicSeries)
    requires s.seriesType == []
    ensures DisplayName(s) == SelectedLabel(s) + " - " + s.publisher
  {
  }

  /** `handleSelect`: the parent records the series, the input shows it, the dropdown closes. */
  function Select(st: State, s: ComicSeries): (r: State)
    ensures r.value == Some(s) && r.query == SelectedLabel(s) && !r.isOpen
    ensures r.results == st.results && r.selectedIndex == st.selectedIndex
  {
    st.(value := Some(s), query := SelectedLabel(s), isOpen := false)
  }

  datatype Key = ArrowDown | ArrowUp | Enter | Escape | OtherKey

  /** `handleKeyDown`. */
  function KeyDown(st: State, key: Key): (r: State)
    // ignored while closed or empty
    ensures !st.isOpen || st.results == [] ==> r == st
    // the index moves by one within the results and only the index changes
    ensures st.isOpen && st.results != [] && key == ArrowDown ==>
      r == st.(selectedIndex := if st.selectedIndex < |st.results| - 1 then st.selectedIndex + 1 else st.selectedIndex)
    ensures st.isOpen && st.results != [] && key == ArrowUp ==>
      r == st.(selectedIndex := if st.selectedIndex > 0 then st.selectedIndex - 1 else st.selectedIndex)
    // Enter chooses the highlighted series, if the index points at one
    ensures st.isOpen && st.results != [] && key == Enter ==>
      if 0 <= st.selectedIndex < |st.results| then r == Select(st, st.results[st.selectedIndex]) else r == st
    // Escape only closes
    ensures st.isOpen && st.results != [] && key == Escape ==> r == st.(isOpen := false)
    ensures key == OtherKey ==> r == st
  {
    if !st.isOpen || |st.results| == 0 then st
    else
      match key
      case ArrowDown =>
        st.(selectedIndex := if st.selectedIndex < |st.results| - 1 then st.selectedIndex + 1 else st.selectedIndex)
      case ArrowUp =>
        st.(selectedIndex := if st.selectedIndex > 0 then st.selectedIndex - 1 else st.selectedIndex)
      case Enter =>
        if 0 <= st.selectedIndex < |st.results| then Select(st, st.results[st.selectedIndex]) else st
      case Escape => st.(isOpen := false)
      case OtherKey => st
  }

  /** The highlighted index is a valid position whenever there are results. */
  predicate IndexInRange(st: State) {
    |st.results| > 0 ==> 0 <= st.selectedIndex < |st.results|
  }

  /** Arrow keys never take an in-range index out of range. */
  lemma ArrowsStayInRange(st: State, key: Key)
    requires IndexInRange(st)
    ensures IndexInRange(KeyDown(st, key))
    ensures key == ArrowDown || key == ArrowUp ==> KeyDown(st, key).results == st.results
  {
  }

  /** Outcome of the search gate: nothing, or a search for this query once the debounce elapses. */
  datatype Gate = Gate(state: State, scheduled: Option<string>)

  /** The search effect, run when the query or the chosen value changes. */
  function SearchGate(st: State): (g: Gate)
    ensures st.value.Some? ==> g == Gate(st, None)
    ensures st.value.None? && |st.query| < 2 ==> g == Gate(st.(results := [], isOpen := false), None)
    ensures st.value.None? && |st.query| >= 2 ==> g == Gate(st, Some(st.query))
  {
    if st.value.Some? then Gate(st, None)
    else if st.query == [] || |st.query| < 2 then Gate(st.(results := [], isOpen := false), None)
    else Gate(st, Some(st.query))
  }

  /** Result of a series search: the response's list (possibly missing), or an error. */
  datatype SearchOutcome = Found(series: Option<seq<ComicSeries>>) | SearchFailed

  /** The end of the debounced search. */
  function SearchDone(st: State, outcome: SearchOutcome): (r: State)
    ensures outcome.Found? ==> r.isOpen && r.selectedIndex == 0 && r.results == outcome.series.GetOr([])
    ensures outcome.SearchFailed? ==> r.results == [] && r.isOpen == st.isOpen
    ensures !r.isLoading && r.query == st.query && r.value == st.value
  {
    match outcome
    case Found(series) => st.(results := series.GetOr([]), isOpen := true, selectedIndex := 0, isLoading := false)
    case SearchFailed => st.(results := [], isLoading := false)
  }

  /** The events the component reacts to. */
  datatype Event =
    | Typed(text: string)
    | ValueChanged(v: Option<ComicSeries>)
    | Gated
    | SearchStarted
    | Searched(outcome: SearchOutcome)
    | Pressed(key: Key)
    | Hovered(index: nat)
    | Clicked(index: nat)
    | ClickedOutside

  /** Row `i` of the dropdown is on screen: open, not loading, and within the results. */
  predicate Rendered(st: State, i: nat) {
    st.isOpen && !st.isLoading && i < |st.results|
  }

  /**
   * The effect of one event. Only a cleared input, a new value from the
   * parent or a choice from the dropdown changes the chosen series; only the
   * gate and a finished search change the results.
   */
  function Step(st: State, e: Event): (r: State)
    ensures r.value != st.value ==>
      (e.Typed? && e.text == []) || e.ValueChanged? || e.Clicked? || (e.Pressed? && e.key == Enter)
    ensures r.results != st.results ==> e.Gated? || e.Searched?
    ensures e.Clicked? && Rendered(st, e.index) ==> r.value == Some(st.results[e.index]) && !r.isOpen
  {
    match e
    case Typed(text) => st.(query := text, value := if text == [] then None else st.value)
    case ValueChanged(v) => st.(value := v, query := if v.Some? then SelectedLabel(v.value) else "")
    case Gated => SearchGate(st).state
    case SearchStarted => st.(isLoading := true)
    case Searched(outcome) => SearchDone(st, outcome)
    case Pressed(key) => KeyDown(st, key)
    case Hovered(i) => if Rendered(st, i) then st.(selectedIndex := i) else st
    case Clicked(i) => if Rendered(st, i) then Select(st, st.results[i]) else st
    case ClickedOutside => st.(isOpen := false)
  }

  /** Every event keeps the highlighted index within the results. */
  lemma StepKeepsIndexInRange(st: State, e: Event)
    requires IndexInRange(st)
    ensures IndexInRange(Step(st, e))
  {
    if e.Pressed? {
      ArrowsStayInRange(st, e.key);
    }
  }

  /** The effect of a sequence of events, in order; without the gate or a search the results stay. */
  function Run(st: State, es: seq<Event>): (r: State)
    ensures (forall i :: 0 <= i < |es| ==> !es[i].Gated? && !es[i].Searched?) ==> r.results == st.results
    decreases |es|
  {
    if es == [] then st else Run(Step(st, es[0]), es[1..])
  }

  /** From the initial state, whatever happens, the highlighted index stays within the results. */
  lemma {:induction false} RunKeepsIndexInRange(st: State, es: seq<Event>)
    requires IndexInRange(st)
    ensures IndexInRange(Run(st, es))
    decreases |es|
  {
    if es != [] {
      StepKeepsIndexInRange(st, es[0]);
      RunKeepsIndexInRange(Step(st, es[0]), es[1..]);
    }
  }

  /** Once a series is chosen, no search is scheduled until the input is cleared. */
  lemma {:induction false} NoSearchWhileChosen(st: State, es: seq<Event>)
    requires st.value.Some?
    requires forall i :: 0 <= i < |es| ==> !(es[i].Typed? && es[i].text == []) && !es[i].ValueChanged?
    ensures Run(st, es).value.Some?
    ensures SearchGate(Run(st, es)).scheduled.None?
    decreases |es|
  {
    if es != [] {
      assert !(es[0].Typed? && es[0].text == []) && !es[0].ValueChanged?;
      NoSearchWhileChosen(Step(st, es[0]), es[1..]);
    }
  }

  /** Clearing the input drops the chosen series and the search gate then closes the dropdown. */
  lemma ClearingDeselects(st: State)
    ensures Step(st, Typed([])).value.None?
    ensures SearchGate(Step(st, Typed([]))) == Gate(Step(st, Typed([])).(results := [], isOpen := false), None)
  {
  }
}

=== FILE: text.dfy ===
/**
 * String helpers shared by the modules of the model. Strings are `seq<char>`;
 * character classes are restricted to ASCII, as the regular expressions of the
 * source (`\d`, `[._-]`) are.
 */
module Text {

  /** The regular-expression class `\d` without the `u` flag: ASCII digits only. */
  predicate IsDigit(c: char) {
    '0' <= c <= '9'
  }

  predicate AllDigits(s: string) {
    forall i :: 0 <= i < |s| ==> IsDigit(s[i])
  }

  /** `s.replace(/\D/g, '')`: the digits of `s`, in order. */
  function KeepDigits(s: string): (r: string)
    ensures AllDigits(r)
    ensures |r| <= |s|
    ensures AllDigits(s) ==> r == s
    ensures r == [] <==> (forall i :: 0 <= i < |s| ==> !IsDigit(s[i]))
  {
    if s == [] then []
    else if IsDigit(s[0]) then [s[0]] + KeepDigits(s[1..])
    else KeepDigits(s[1..])
  }

  /** Digits are kept across concatenation: filtering distributes over `+`. */
  lemma {:induction false} KeepDigitsAppend(a: string, b: string)
    ensures KeepDigits(a + b) == KeepDigits(a) + KeepDigits(b)
  {
    if a != [] {
      assert (a + b)[1..] == a[1..] + b;
      KeepDigitsAppend(a[1..], b);
    } else {
      assert a + b == b;
    }
  }

  /** `toUpperCase` restricted to ASCII: a-z become A-Z, everything else is unchanged. */
  function UpperChar(c: char): (r: char)
    ensures 'a' <= c <= 'z' ==> 'A' <= r <= 'Z' && r as int - c as int == 'A' as int - 'a' as int
    ensures !('a' <= c <= 'z') ==> r == c
  {
    if 'a' <= c <= 'z' then (c as int - 'a' as int + 'A' as int) as char else c
  }

  predicate NoLowerAscii(s: string) {
    forall i :: 0 <= i < |s| ==> !('a' <= s[i] <= 'z')
  }

  function Upper(s: string): (r: string)
    ensures |r| == |s|
    ensures forall i :: 0 <= i < |s| ==> r[i] == UpperChar(s[i])
    ensures NoLowerAscii(r)
  {
    if s == [] then [] else [UpperChar(s[0])] + Upper(s[1..])
  }

  /**
   * `s.split(sep)` where `sep` matches any single character of `seps`:
   * the pieces between separators, always at least one (the empty string
   * splits into one empty piece).
   */
  function Split(s: string, seps: set<char>): (r: seq<string>)
    ensures |r| >= 1
    ensures forall k :: 0 <= k < |r| ==> forall i :: 0 <= i < |r[k]| ==> r[k][i] !in seps
    ensures |r| == 1 <==> (forall i :: 0 <= i < |s| ==> s[i] !in seps)
  {
    if s == [] then [[]]
    else
      var rest := Split(s[1..], seps);
      if s[0] in seps then [[]] + rest
      else [[s[0]] + rest[0]] + rest[1..]
  }

  /** `parts.join([sep])`. */
  function Join(parts: seq<string>, sep: char): string
  {
    if parts == [] then []
    else if |parts| == 1 then parts[0]
    else parts[0] + [sep] + Join(parts[1..], sep)
  }

  /** The first piece opens the joined text, the separator follows it, the last piece closes it. */
  lemma {:induction false} JoinEnds(parts: seq<string>, sep: char)
    requires |parts| >= 1
    ensures parts[0] <= Join(parts, sep)
    ensures |parts| >= 2 ==> |parts[0]| < |Join(parts, sep)| && Join(parts, sep)[|parts[0]|] == sep
    ensures var r, last := Join(parts, sep), parts[|parts| - 1];
      |last| <= |r| && r[|r| - |last|..] == last
  {
    if |parts| >= 2 {
      var rest := Join(parts[1..], sep);
      var r := parts[0] + [sep] + rest;
      assert Join(parts, sep) == r;
      JoinEnds(parts[1..], sep);
      assert parts[|parts| - 1] == parts[1..][|parts[1..]| - 1];
      assert r[..|parts[0]|] == parts[0];
      assert r[|r| - |rest|..] == rest;
    }
  }

  predicate Free(s: string, c: char) {
    forall i :: 0 <= i < |s| ==> s[i] != c
  }

  /** Splitting a joined list recovers the list when no piece holds the separator. */
  lemma {:induction false} SplitJoin(parts: seq<string>, sep: char)
    requires |parts| >= 1
    requires forall k :: 0 <= k < |parts| ==> Free(parts[k], sep)
    ensures Split(Join(parts, sep), {sep}) == parts
  {
    if |parts| == 1 {
      SplitNoSep(parts[0], {sep});
    } else {
      var rest := Join(parts[1..], sep);
      assert Join(parts, sep) == parts[0] + [sep] + rest;
      assert FreeOf(parts[0], {sep}) by {
        assert Free(parts[0], sep);
      }
      SplitJoin(parts[1..], sep);
      SplitPrefix(parts[0], rest, sep, {sep});
      assert parts == [parts[0]] + parts[1..];
    }
  }

  /** No character of `s` is a separator. */
  predicate FreeOf(s: string, seps: set<char>) {
    forall i :: 0 <= i < |s| ==> s[i] !in seps
  }

  lemma {:induction false} SplitNoSep(s: string, seps: set<char>)
    requires FreeOf(s, seps)
    ensures Split(s, seps) == [s]
  {
    if s != [] {
      SplitNoSep(s[1..], seps);
      assert [s[0]] + s[1..] == s;
    }
  }

  /** A separator-free head followed by a separator starts a new piece. */
  lemma {:induction false} SplitPrefix(a: string, b: string, sep: char, seps: set<char>)
    requires sep in seps
    requires FreeOf(a, seps)
    ensures Split(a + [sep] + b, seps) == [a] + Split(b, seps)
  {
    if a == [] {
      assert a + [sep] + b == [sep] + b;
      assert ([sep] + b)[1..] == b;
    } else {
      assert (a + [sep] + b)[1..] == a[1..] + [sep] + b;
      SplitPrefix(a[1..], b, sep, seps);
      assert [a[0]] + a[1..] == a;
    }
  }

  /** The first piece of `s.split('@')`: everything before the first '@'. */
  lemma {:induction false} SplitHeadIsPrefix(s: string, c: char)
    ensures Free(Split(s, {c})[0], c)
    ensures Split(s, {c})[0] <= s
    ensures |Split(s, {c})[0]| < |s| ==> s[|Split(s, {c})[0]|] == c
  {
    if s != [] {
      SplitHeadIsPrefix(s[1..], c);
    }
  }

  /** Decimal digit of `d`. */
  function DigitChar(d: nat): (r: char)
    requires d < 10
    ensures IsDigit(r)
  {
    ('0' as int + d) as char
  }

  /** Decimal numeral of a natural number, without leading zeros. */
  function NatToString(n: nat): (r: string)
    ensures |r| >= 1
    ensures AllDigits(r)
    ensures |r| > 1 ==> r[0] != '0'
    decreases n
  {
    if n < 10 then [DigitChar(n)] else NatToString(n / 10) + [DigitChar(n % 10)]
  }

  /** The number a string of decimal digits denotes. */
  function DecimalValue(s: string): nat
    requires AllDigits(s)
  {
    if s == [] then 0 else 10 * DecimalValue(s[..|s| - 1]) + (s[|s| - 1] as int - '0' as int)
  }

  /** Reading the numeral back gives the number. */
  lemma {:induction false} NatToStringValue(n: nat)
    ensures DecimalValue(NatToString(n)) == n
    decreases n
  {
    if n >= 10 {
      NatToStringValue(n / 10);
      var r := NatToString(n);
      assert r[..|r| - 1] == NatToString(n / 10);
    }
  }

  /** `n.toString()` for an integral JS number: read back, it denotes `n`. */
  function IntToString(n: int): (r: string)
    ensures |r| >= 1
    ensures n >= 0 ==> AllDigits(r) && DecimalValue(r) == n && (|r| > 1 ==> r[0] != '0')
    ensures n < 0 ==> r[0] == '-' && |r| >= 2 && AllDigits(r[1..]) && DecimalValue(r[1..]) == -n
  {
    if n < 0 then
      NatToStringValue(-n);
      assert ("-" + NatToString(-n))[1..] == NatToString(-n);
      "-" + NatToString(-n)
    else
      NatToStringValue(n);
      NatToString(n)
  }
}

=== FILE: toasts.dfy ===
/**
 * The toast list kept by the toast provider (contexts/ToastContext.tsx):
 * showing appends one toast, closing removes by id. The id generator
 * (clock and random number) is outside the model; ids are passed in.
 */
module Toasts {
  import opened Wrappers

  datatype ToastType = Success | Info | Warning | Error

  /** `ToastMessage` (components/ui/Toast.tsx). */
  datatype Toast = Toast(id: string, title: string, message: string, kind: ToastType, duration: int)

  const DefaultDuration := 5000

  /** `showToast`: append a toast built from the arguments, `type` defaulting to info and `duration` to 5000. */
  function ShowToast(toasts: seq<Toast>, id: string, title: string, message: string,
                     kind: Option<ToastType>, duration: Option<int>): (r: seq<Toast>)
    ensures |r| == |toasts| + 1
    ensures r[..|toasts|] == toasts
    ensures r[|toasts|].id == id && r[|toasts|].title == title && r[|toasts|].message == message
    ensures r[|toasts|].kind == (if kind.Some? then kind.value else Info)
    ensures r[|toasts|].duration == (if duration.Some? then duration.value else DefaultDuration)
  {
    var newToast := Toast(id, title, message, kind.GetOr(Info), duration.GetOr(DefaultDuration));
    toasts + [newToast]
  }

  /** `closeToast`: `prev.filter((toast) => toast.id !== id)`. */
  function CloseToast(toasts: seq<Toast>, id: string): (r: seq<Toast>)
    ensures |r| <= |toasts|
    ensures forall i :: 0 <= i < |r| ==> r[i].id != id && r[i] in toasts
    ensures forall i :: 0 <= i < |toasts| && toasts[i].id != id ==> toasts[i] in r
  {
    if toasts == [] then []
    else if toasts[0].id != id then [toasts[0]] + CloseToast(toasts[1..], id)
    else CloseToast(toasts[1..], id)
  }

  predicate HasId(toasts: seq<Toast>, id: string) {
    exists i :: 0 <= i < |toasts| && toasts[i].id == id
  }

  /** Closing an id that no toast carries leaves the list as it is. */
  lemma {:induction false} CloseAbsent(toasts: seq<Toast>, id: string)
    requires !HasId(toasts, id)
    ensures CloseToast(toasts, id) == toasts
  {
    if toasts != [] {
      assert forall i :: 0 <= i < |toasts[1..]| ==> toasts[1..][i] == toasts[i + 1];
      CloseAbsent(toasts[1..], id);
      assert [toasts[0]] + toasts[1..] == toasts;
    }
  }

  /** Closing distributes over concatenation: the order of the kept toasts is the original order. */
  lemma {:induction false} CloseAppend(a: seq<Toast>, b: seq<Toast>, id: string)
    ensures CloseToast(a + b, id) == CloseToast(a, id) + CloseToast(b, id)
  {
    if a == [] {
      assert a + b == b;
    } else {
      assert (a + b)[1..] == a[1..] + b;
      CloseAppend(a[1..], b, id);
    }
  }

  /** Showing a toast with a fresh id and then closing that id restores the list. */
  lemma ShowThenClose(toasts: seq<Toast>, id: string, title: string, message: string,
                      kind: Option<ToastType>, duration: Option<int>)
    requires !HasId(toasts, id)
    ensures CloseToast(ShowToast(toasts, id, title, message, kind, duration), id) == toasts
  {
    var t := Toast(id, title, message, kind.GetOr(Info), duration.GetOr(DefaultDuration));
    CloseAppend(toasts, [t], id);
    CloseAbsent(toasts, id);
    assert CloseToast([t], id) == [];
  }

  /** Closing the same id again changes nothing. */
  lemma CloseIdempotent(toasts: seq<Toast>, id: string)
    ensures CloseToast(CloseToast(toasts, id), id) == CloseToast(toasts, id)
  {
    var r := CloseToast(toasts, id);
    assert !HasId(r, id);
    CloseAbsent(r, id);
  }

  /** The context a component reads: present inside a provider. */
  datatype ToastContext = ToastContext

  datatype Lookup = Context(ctx: ToastContext) | Thrown(message: string)

  /** `useToast`: outside a provider it is an error. */
  function UseToast(context: Option<ToastContext>): (r: Lookup)
    ensures context.None? <==> r.Thrown?
    ensures r.Thrown? ==> r.message == "useToast must be used within a ToastProvider"
  {
    if context.None? then Thrown("useToast must be used within a ToastProvider")
    else Context(context.value)
  }
}

=== FILE: wrappers.dfy ===
/** Optional values, standing in for the `undefined` / `null` of the TypeScript source. */
module Wrappers {

  /** `None` is an absent (undefined or null) value; `Some(v)` a present one. */
  datatype Option<+T> = None | Some(value: T) {

    /** The present value, or `default` in its place: `x ?? default`. */
    function GetOr(default: T): (r: T)
      ensures Some? ==> r == value
      ensures None? ==> r == default
    {
      match this
      case Some(v) => v
      case None => default
    }
  }
}
